=== FILE: README.md ===
# Offline-first worker and promotions function: a Dafny model

This project models the core of a progressive web app's offline support:

- the **service worker** (`service-worker.js`): the fetch handler's
  classification chain and its four response strategies (network first,
  network only, cache first, stale-while-revalidate) over an abstract Cache
  Storage and an abstract network outcome; the **token relay**, a one-slot
  store for an authentication token kept in its own cache container and
  served under `/__auth-token-cache__` by POST, GET and DELETE; the
  **activation gate**, which lets a waiting worker take control only after
  an 8 s quiet window without navigations, or once a 120 s hard deadline
  has passed, retrying every 5 s; and **cache generations**, where install
  seeds the current container with `/` and `/index.html` and activate
  deletes every other container;
- the **promotions function**
  (`deploy-691be8f5c1411b77b59c3721/netlify/functions/api.js`): a stateless
  handler that answers `404`, `304` or `200` for a request path, its
  `If-None-Match` header and the clock, in the manner of section 13.1.2 of
  RFC 9110 but with plain string equality rather than the weak comparison
  of section 8.8.3.2 of RFC 9110.

Modules and files:

| file | module | what it holds |
|---|---|---|
| `common.dfy` | `Common` | `Option`, the string tests (`startsWith`, `endsWith`, `includes`, ASCII case folding) |
| `json.dfy` | `JsonValues` | parsed JSON values, JavaScript truthiness, property access |
| `http.dfy` | `Http` | requests, responses, network outcomes, what the fetch handler answers |
| `cache_storage.dfy` | `CacheStorage` | named containers in creation order; `open`, `delete`, `put`, `match` |
| `router.dfy` | `Router` | the classification chain |
| `strategies.dfy` | `Strategies` | the four response strategies |
| `token_relay.dfy` | `TokenRelay` | POST, GET and DELETE on the token slot |
| `lifecycle.dfy` | `Lifecycle` | install and activate over cache storage |
| `activation_gate.dfy` | `ActivationGate` | the gate as a value and its transitions |
| `worker.dfy` | `ServiceWorker` | the fetch handler, and the `WorkerSession` class whose methods are the event handlers |
| `promotions_api.dfy` | `PromotionsApi` | the promotions handler |

The worker's pure logic is written as functions and lemmas. The
`WorkerSession` class holds the worker's mutable globals and its cache
storage. Each of its methods updates that state in place and states the new
state as the matching pure function applied to the old state. Activate is
a loop over the snapshot of container names, like the source's iteration.
Handlers run as one sequential step each. A write-back that the source does
not await is applied within the same step. The clock is the parameter `now`.
A pending timer is held as its due time.

Four behaviours of the code that a reader might not expect, all modelled
as written:

- activate deletes the token container `auth-token-cache` like any other
  non-current container; it is not exempt;
- when a navigation's fetch fails, the answer is the bare cache match, which
  may be nothing; there is no synthetic 503 for navigations (only
  stale-while-revalidate answers 503 "Offline");
- the cache generation is the literal `v1763436837512`; nothing derives or
  sanitises it, and nothing broadcasts to clients;
- the gate exists and is always applied to a skip-waiting message.

## Model

| member | source | states |
|---|---|---|
| Common.ContainsIffOccurs | service-worker.js:131 | `includes` searched left to right finds a substring exactly when it occurs at some index |
| JsonValues.Member | service-worker.js:79 | reading `token` or `type` (keys no array, string, number or prototype supplies) yields a value exactly when the value is an object that has that key |
| CacheStorage.Open | service-worker.js:13 | `caches.open` creates an empty container only when absent, appended last to the creation order; existing containers are unchanged |
| CacheStorage.Delete | service-worker.js:23 | `caches.delete` removes exactly the named container, keeps the others' entries, and changes nothing when the name is absent |
| CacheStorage.WithoutKeepsOrder | service-worker.js:23 | removing a name from a listing removes it from each part and keeps the parts in order, and keeps any other single name |
| CacheStorage.DeleteKeepsOrder | service-worker.js:23 | `caches.delete` lists the survivors in their creation order |
| CacheStorage.Put | service-worker.js:89 | `cache.put` stores the response under the URL and leaves every other entry and container as it was |
| CacheStorage.DeleteEntry | service-worker.js:115 | `cache.delete(url)` removes exactly that entry of the one container |
| CacheStorage.Match | service-worker.js:68 | `caches.match` answers nothing for a non-GET request; for a GET it finds an entry exactly when some listed container holds the URL, and answers the creation-order search's result |
| CacheStorage.FirstMatch | service-worker.js:146 | the search finds an entry iff some listed container holds the URL, and then answers the entry of the earliest index that holds it, no earlier one holding it |
| CacheStorage.OlderGenerationShadows | service-worker.js:68 | while an older container still holds the URL, its entry is served rather than the current container's |
| CacheStorage.WriteBack | service-worker.js:65 | the container is opened in any case; a GET with a status other than 206 is then stored; every other URL of that container keeps its entry, the listing is that of the open, and other containers are untouched |
| Router.Classify | service-worker.js:59-150 | the first-match chain: document iff navigation or `.html`; token routes only on the token URL; the cached routes only for GETs that are not backend URLs; root only for `/` or `/index.html`, the no-store route only for the worker script, cache first only for assets, stale-while-revalidate only for non-assets |
| Router.DocumentWinsOverEverything | service-worker.js:59 | any navigation or `.html` pathname is a document request, whatever its method and even on the token endpoint |
| Router.RootIsOnlySlash | service-worker.js:136 | the root branch only ever serves the pathname `/`, since `/index.html` is caught earlier by the `.html` test |
| Router.TokenRoutesExactly | service-worker.js:74-124 | the token endpoint answers exactly POST, GET and DELETE; any other method on it is passed through |
| Router.BypassExactly | service-worker.js:126-133 | passed through iff not a document, not a token route, and either not GET or a URL naming the backend |
| Router.CachedRoutesExactly | service-worker.js:135-150 | for the GETs the worker serves itself: root iff the pathname is `/`; no-store iff the worker script; cache first iff an asset other than those; stale-while-revalidate iff not an asset and not `/` |
| Router.WorkerScriptPathname | service-worker.js:135 | the worker script's pathname passes the asset test and fails both `.html` tests |
| Router.WorkerScriptNeverAsset | service-worker.js:140-149 | the worker script is never served cache first, and a plain GET of it takes the no-store route |
| Router.AssetExtensionAnyCase | service-worker.js:135 | every casing of every listed extension makes the pathname an asset (the `i` flag) |
| Router.AssetExtensionIgnoresCase | service-worker.js:135 | an upper-case extension such as `.PNG` is an asset |
| Strategies.NetworkFirst | service-worker.js:61-68 | on success the network response is returned and, with write-back, stored for a GET whatever its status except 206 (which `put` refuses), by exactly the write-back and nothing else; on failure the answer is the cache match or nothing, with storage unchanged |
| Strategies.CacheFirst | service-worker.js:144-149 | a hit is returned with no fetch; a miss gets the network's answer; storage never changes |
| Strategies.StaleWhileRevalidate | service-worker.js:150-161 | cached entry first, else network response, else 503 "Offline"; written back, by exactly the write-back, only for status 200 and not opaque; otherwise storage unchanged |
| Strategies.CacheFirstHitIgnoresNetwork | service-worker.js:146 | a cache-first hit gives the same step whatever the network does |
| Strategies.NetworkFirstWriteBackServesLaterFailure | service-worker.js:61-68 | after a successful document fetch, a later network failure for the same GET is answered from the cache |
| Strategies.RevalidatedEntryServesOffline | service-worker.js:151-159 | after a revalidating fetch the request is a cache hit, and is answered from the cache with the network down |
| TokenRelay.ValidToken | service-worker.js:79 | the payload passes exactly when it is an object whose `token` is a string |
| TokenRelay.Post | service-worker.js:75-101 | unparseable body: 400 "Invalid JSON"; bad payload: 400 "Invalid token format"; both leave storage as it was; otherwise the slot holds exactly `{token}`, the reply is `{success: true}`, the token container is opened (created last if absent) with its other entries kept, other containers are untouched |
| TokenRelay.Get | service-worker.js:102-111 | answers the stored response, or `{token: null}` when the slot is empty; only opens the container |
| TokenRelay.Delete | service-worker.js:112-122 | always `{success: true}`; the token container exists afterwards (created last if absent) and the slot in it is empty, its other entries kept; other containers are untouched |
| TokenRelay.PostDropsExtraFields | service-worker.js:86-89 | two payloads with the same token store the same thing and get the same reply |
| TokenRelay.PostThenGet | service-worker.js:86-108 | a valid POST is read back by GET as `{token}` |
| TokenRelay.RejectedPostKeepsSlot | service-worker.js:79-98 | a rejected POST answers 400, leaves storage as it was, and an empty slot still reads `{token: null}` |
| TokenRelay.DeleteThenGetAndIdempotent | service-worker.js:102-121 | GET after DELETE answers `{token: null}`; a second DELETE changes nothing |
| Lifecycle.Install | service-worker.js:11-17 | the current container always exists afterwards; both shell routes are stored iff both responses are ok and not 206, otherwise none is and the install fails; a new container is listed last, every other entry of the current container stays, and other containers are untouched |
| Lifecycle.DropIfStale | service-worker.js:23 | one step of activate removes the named container unless it is the current one, and keeps every survivor's entries |
| Lifecycle.Reclaim | service-worker.js:22-24 | activate over the names listed so far keeps the listing well formed and only ever removes containers; exactly which is `Lifecycle.ReclaimRemovesListed` |
| Lifecycle.ReclaimStep | service-worker.js:22-24 | one more listed name extends the run by deleting that name unless it is the current container |
| Lifecycle.ReclaimRemovesListed | service-worker.js:22-24 | deleting over a list of names removes exactly the listed non-current containers and keeps the survivors' entries |
| Lifecycle.TokenContainerIsNotCurrent | service-worker.js:2 | `auth-token-cache` is not the current container's name |
| Lifecycle.ActivateLeavesOnlyCurrent | service-worker.js:20-24 | after activate only the current container can remain, with all its entries; the token container is gone |
| Lifecycle.SingleContainerListing | service-worker.js:22 | a listing of distinct names whose only possible container is one name is that name alone, or empty |
| Lifecycle.ActivateListsOnlyCurrent | service-worker.js:22-24 | after activate `caches.keys()` lists the current container alone, or nothing |
| Lifecycle.ReclaimNothingStale | service-worker.js:23 | deleting over names that are current or already gone changes nothing |
| Lifecycle.ActivateIdempotent | service-worker.js:20-24 | running activate a second time changes nothing |
| ActivationGate.Attempt | service-worker.js:37-49 | activates iff already active, or more than 8000 ms since the last navigation, or an armed deadline has passed; a deferral keeps an armed deadline or sets now + 120000, and replaces the timer with one at now + 5000 |
| ActivationGate.Navigation | service-worker.js:60 | a navigation opens a fresh quiet window, in which no attempt passes the quiet-window test, and changes nothing else |
| ActivationGate.TimerFired | service-worker.js:45 | a fired timer re-runs the attempt: it activates exactly when already active, the quiet window has passed, or the armed deadline is reached; timers never stack: after a timer fires the worker is activated with no timer pending, or exactly one retry is pending 5000 ms later; activation is kept |
| ActivationGate.DeadlineNeverMoves | service-worker.js:42 | once armed, the deadline is never moved by any sequence of events |
| ActivationGate.ActivationSticks | service-worker.js:39 | once activated, the worker stays activated |
| ActivationGate.DeadlineForcesActivation | service-worker.js:42-47 | once armed, any skip-waiting attempt, and any retry timer due, at or after the deadline activates, however recent the last navigation |
| ActivationGate.RunTracksLastNav | service-worker.js:29-60 | after any run `LAST_NAV_AT` is the time of the latest navigation |
| ActivationGate.QuietRunDefers | service-worker.js:33-45 | while every attempt and timer falls within 8000 ms of the latest navigation before it, and before the armed deadline, the worker is never activated |
| ActivationGate.NavigationExtendsQuietWindow | service-worker.js:33-60 | a navigation at 7 s defers an attempt at 12 s that the navigation at 0 s alone would not |
| ActivationGate.FirstDeferralArms | service-worker.js:42-45 | a first deferred attempt arms the deadline at now + 120000, schedules one retry at now + 5000, and does not activate |
| ServiceWorker.FetchStep | service-worker.js:56-162 | each route is served by its strategy: documents network first with write-back, the token routes by the relay, bypass untouched, root network first without write-back, the worker script network only, assets cache first, the rest stale-while-revalidate |
| ServiceWorker.IsSkipWaiting | service-worker.js:166-167 | the message test holds exactly for the string `'SKIP_WAITING'` or an object whose `type` is that string |
| ServiceWorker.BypassTouchesNoCache | service-worker.js:126-133 | a passed-through request leaves storage unchanged and its answer does not depend on storage |
| ServiceWorker.DocumentNetworkFirst | service-worker.js:59-71 | a document request gets the network response, stored for GETs whatever the status except 206 (which `put` refuses); on failure the bare cache match or nothing, with no synthetic reply |
| ServiceWorker.TokenSlotOnlyChangedByTokenRoutes | service-worker.js:56-161 | no fetch other than token POST or DELETE changes the token slot |
| ServiceWorker.AssetHitNeedsNoNetwork | service-worker.js:144-149 | an asset hit answers the cached entry whatever the network does, and writes nothing |
| ServiceWorker.WorkerScriptNeverFromCache | service-worker.js:140-143 | the worker script is answered by the network or a network error, never from storage, and nothing is stored |
| ServiceWorker.WorkerSession.constructor | service-worker.js:29-31 | the gate starts with the last navigation at the start time, no deadline, no timer, not activated |
| ServiceWorker.WorkerSession.Install | service-worker.js:11-17 | the install handler's new storage and outcome are those of `Lifecycle.Install`; the gate is untouched |
| ServiceWorker.WorkerSession.Activate | service-worker.js:20-27 | the loop's new storage keeps only the current container, with its entries intact; the clients are claimed |
| ServiceWorker.WorkerSession.AttemptActivate | service-worker.js:37-49 | the new gate state is `ActivationGate.Attempt` of the old one; storage untouched |
| ServiceWorker.WorkerSession.TimerFires | service-worker.js:45 | a due timer is cleared and the attempt re-run |
| ServiceWorker.WorkerSession.OnMessage | service-worker.js:164-170 | an attempt is made exactly for a truthy `'SKIP_WAITING'` string or an object whose `type` is that string; anything else changes nothing |
| ServiceWorker.WorkerSession.Fetch | service-worker.js:56-162 | the new storage and answer are those of the request's route; a document request records the navigation time, and nothing else touches the gate |
| PromotionsApi.Decimal | deploy-691be8f5c1411b77b59c3721/netlify/functions/api.js:7 | `String(n)` of a non-negative number is non-empty, all digits, with no leading zero |
| PromotionsApi.DecimalRoundTrip | deploy-691be8f5c1411b77b59c3721/netlify/functions/api.js:7 | reading the decimal form back gives the number |
| PromotionsApi.DecimalInjective | deploy-691be8f5c1411b77b59c3721/netlify/functions/api.js:7 | distinct numbers have distinct decimal forms |
| PromotionsApi.DecimalLength | deploy-691be8f5c1411b77b59c3721/netlify/functions/api.js:7 | a number between 10^k and 10^(k+1) has k + 1 digits |
| PromotionsApi.IntToStringRoundTrip | deploy-691be8f5c1411b77b59c3721/netlify/functions/api.js:7 | reading `String(n)` back gives `n`, minus sign included, for magnitudes below 10^21, which covers every `Date.now()` reading |
| PromotionsApi.Version | deploy-691be8f5c1411b77b59c3721/netlify/functions/api.js:7 | the version is a non-empty prefix of the clock's decimal form: exactly its first 10 characters when it is longer, all of it otherwise |
| PromotionsApi.VersionIsSeconds | deploy-691be8f5c1411b77b59c3721/netlify/functions/api.js:7 | for a 13-digit clock the version is `now / 1000` in decimal |
| PromotionsApi.VersionChangesEverySecond | deploy-691be8f5c1411b77b59c3721/netlify/functions/api.js:7 | two 13-digit readings give the same version iff they fall in the same second |
| PromotionsApi.DoubledPrefixSubsumed | deploy-691be8f5c1411b77b59c3721/netlify/functions/api.js:3 | every match of the `/api/api/promotions` regex contains a match of the first regex, so the test equals the first regex alone |
| PromotionsApi.PromotionsMatchIff | deploy-691be8f5c1411b77b59c3721/netlify/functions/api.js:3 | the path matches iff `/api/promotions` occurs followed by the end of the path or a non-word character |
| PromotionsApi.PromotionsExamples | deploy-691be8f5c1411b77b59c3721/netlify/functions/api.js:3 | `/api/promotions`, `/api/promotions/x` and `/api/api/promotions` match; `/api/promotionsX` and `/api/promotions_x` do not |
| PromotionsApi.IfNoneMatch | deploy-691be8f5c1411b77b59c3721/netlify/functions/api.js:8 | the lower-case header when present and non-empty, else the canonical spelling, else `''`; a non-empty result is some header's value |
| PromotionsApi.Handler | deploy-691be8f5c1411b77b59c3721/netlify/functions/api.js:1-19 | 404 `{error: 'Not Found'}` iff the path does not match; 304 with only the `ETag` and no body iff the tag equals the version; otherwise 200 with JSON type, `no-cache`, the version as `ETag` and the one-item payload |
| PromotionsApi.AbsentHeaderNever304 | deploy-691be8f5c1411b77b59c3721/netlify/functions/api.js:8-9 | without an If-None-Match header the reply is never 304, and is 200 on the promotions path |
| PromotionsApi.MissingPathNotFound | deploy-691be8f5c1411b77b59c3721/netlify/functions/api.js:2-5 | a missing path is treated as `''` and answered 404 |
| PromotionsApi.FullReplyCarriesItsTag | deploy-691be8f5c1411b77b59c3721/netlify/functions/api.js:12-18 | a 200 body's `version` equals its `ETag`, and it lists exactly one item |
| PromotionsApi.RevalidationRoundTrip | deploy-691be8f5c1411b77b59c3721/netlify/functions/api.js:7-18 | sending back a 200's tag, in either header spelling, gives 304 while the version is unchanged and 200 with the new tag once it moves |
| PromotionsApi.RevalidationPerSecond | deploy-691be8f5c1411b77b59c3721/netlify/functions/api.js:7-10 | with a 13-digit clock, revalidating within the same second gives 304 and in another second 200 |

## Left out

- Real Cache Storage, `fetch`, `Request`, `Response`, `clone()` and `new URL` are abstracted: storage is a map of containers in creation order, the network is a parameter `Ok(response)` or `Fail`, and a request carries its `url` and `pathname` as given strings (no URL parsing or normalisation, no fragments or query handling by the Cache API, no `Vary`).
- Asynchrony: un-awaited `cache.put` calls, the background revalidation racing the returned response, and `respondWith`/`waitUntil` timing are not modelled; every handler is one sequential step, and a write-back is applied within it.
- `Date.now`, `setTimeout` and `clearTimeout` are replaced by a `now` parameter and a stored due time; timers fire only when the caller says so.
- `self.skipWaiting()` and `self.clients.claim()` are the flags `activated` and `claimed`; what the browser then does with them is not modelled.
- JSON parsing and serialisation: the token POST body arrives already parsed (or as a parse failure), JSON numbers are integers, and response bodies are kept as JSON values rather than text.
- Message data is JSON; structured-clone values that are not JSON are not modelled.
- `urlsToCache` (service-worker.js:3-8) is declared but never used by the code, so it has no counterpart.
- deploy-691be8f5c1411b77b59c3721/netlify/edge-functions/promotions.js is not part of this model: it is a server-sent-events stream on a timer, carrying a fixed message.
- Version derivation, key sanitising and client broadcasting are not modelled because the code has none.
- Cache operations never fail in the model: `caches.open`, `put`, `delete` and `caches.delete` always succeed (a `put` refused for a non-GET request or a 206 response stores nothing, as in the browser). In the browser a failing store can reject: a rejected `caches.open` in the token POST is answered 400 "Invalid JSON", an un-awaited `put` (service-worker.js:65, :89, :155) can fail after the reply has been sent, a failing store fails the install, and when a `caches.delete` (service-worker.js:23) rejects, the activate handler's promise rejects and that container stays.
- PromotionsApi.IntToString: models `String(n)` in plain decimal only; JavaScript writes integers of magnitude 10^21 or more in exponential form (`"1e+21"`), which no clock reading reaches.
- PromotionsApi.VersionIsSeconds: is stated for 13-digit clocks only (September 2001 to November 2286); for other clock widths the version is still stated by `PromotionsApi.Version`.

=== FILE: activation_gate.dfy ===
/** The activation gate: a waiting worker takes control (`skipWaiting`) only
    once no navigation has been seen for a quiet window, or once a hard
    deadline, set at the first deferred attempt, has passed. Times are
    milliseconds on the worker's clock. */
module ActivationGate {
  import opened Common

  const QUIET_WINDOW_MS := 8000
  const HARD_DEADLINE_MS := 120000
  const RETRY_MS := 5000

  /** `LAST_NAV_AT`, `ACTIVATE_DEADLINE`, the due time of `ACTIVATE_TIMER`,
      and whether `skipWaiting` has been called (calling it again changes
      nothing). */
  datatype Gate = Gate(lastNavAt: int, deadline: Option<int>, timer: Option<int>, activated: bool)

  /** The gate as the worker script starts it. */
  function Initial(now: int): Gate {
    Gate(now, None, None, false)
  }

  /** `canActivate()`: strictly more than the quiet window since the last
      navigation. */
  predicate CanActivate(g: Gate, now: int) {
    now - g.lastNavAt > QUIET_WINDOW_MS
  }

  /** `ACTIVATE_DEADLINE` is truthy: set, and not 0. */
  predicate Armed(g: Gate) {
    g.deadline.Some? && g.deadline.value != 0
  }

  /** `attemptActivate()` at time `now`. */
  function Attempt(g: Gate, now: int): (r: Gate)
    ensures r.lastNavAt == g.lastNavAt
    ensures r.activated <==> g.activated || CanActivate(g, now) || (Armed(g) && now >= g.deadline.value)
    ensures CanActivate(g, now) ==> r == g.(activated := true)
    ensures !CanActivate(g, now) ==> r.deadline.Some?
    ensures !CanActivate(g, now) && Armed(g) ==> r.deadline == g.deadline
    ensures !CanActivate(g, now) && !Armed(g) ==> r.deadline == Some(now + HARD_DEADLINE_MS)
    ensures !CanActivate(g, now) && now < r.deadline.value ==> r.timer == Some(now + RETRY_MS)
    ensures !(!CanActivate(g, now) && now < r.deadline.value) ==> r.timer == g.timer
  {
    if CanActivate(g, now) then g.(activated := true)
    else
      var deadline := if Armed(g) then g.deadline.value else now + HARD_DEADLINE_MS;
      if now < deadline then g.(deadline := Some(deadline), timer := Some(now + RETRY_MS))
      else g.(deadline := Some(deadline), activated := true)
  }

  /** A navigation records its time, and so opens a fresh quiet window:
      no attempt within it passes the quiet-window test. Nothing else
      changes. */
  function Navigation(g: Gate, now: int): (r: Gate)
    ensures forall t :: t <= now + QUIET_WINDOW_MS ==> !CanActivate(r, t)
    ensures r.deadline == g.deadline && r.timer == g.timer && r.activated == g.activated
  {
    g.(lastNavAt := now)
  }

  /** The pending retry timer fires at or after its due time and re-runs
      the attempt: it activates the worker exactly when the quiet window has
      passed or the armed deadline is reached. Timers never stack:
      afterwards either the worker is activated and no timer is pending, or
      exactly one retry is pending, one retry interval later. */
  function TimerFired(g: Gate, now: int): (r: Gate)
    requires g.timer.Some? && g.timer.value <= now
    ensures r.activated <==> g.activated || CanActivate(g, now) || (Armed(g) && now >= g.deadline.value)
    ensures r.timer.None? ==> r.activated
    ensures r.timer.Some? ==> r.timer.value == now + RETRY_MS && !CanActivate(g, now)
    ensures g.activated ==> r.activated
  {
    Attempt(g.(timer := None), now)
  }

  /** What the worker observes over time. */
  datatype Event = NavigationAt(at: int) | SkipWaitingAt(at: int) | TimerAt(at: int)

  /** One event; a timer event with no timer due is ignored. */
  function Apply(g: Gate, e: Event): Gate {
    match e
    case NavigationAt(t) => Navigation(g, t)
    case SkipWaitingAt(t) => Attempt(g, t)
    case TimerAt(t) => if g.timer.Some? && g.timer.value <= t then TimerFired(g, t) else g
  }

  function Run(g: Gate, events: seq<Event>): Gate
    decreases |events|
  {
    if events == [] then g else Run(Apply(g, events[0]), events[1..])
  }

  /** Once armed, the deadline is never moved, whatever happens. */
  lemma {:induction false} DeadlineNeverMoves(g: Gate, events: seq<Event>)
    requires Armed(g)
    ensures Run(g, events).deadline == g.deadline
    decreases |events|
  {
    if events != [] {
      DeadlineNeverMoves(Apply(g, events[0]), events[1..]);
    }
  }

  /** Activation is never undone. */
  lemma {:induction false} ActivationSticks(g: Gate, events: seq<Event>)
    requires g.activated
    ensures Run(g, events).activated
    decreases |events|
  {
    if events != [] {
      ActivationSticks(Apply(g, events[0]), events[1..]);
    }
  }

  /** A retry timer is due at the `k`-th event: the event is a timer event
      and the run before it left a timer pending no later than that. */
  predicate TimerDueAt(g: Gate, events: seq<Event>, k: nat)
    requires k < |events|
  {
    var before := Run(g, events[..k]);
    events[k].TimerAt? && before.timer.Some? && before.timer.value <= events[k].at
  }

  /** The hard ceiling: once the deadline is armed, any skip-waiting attempt,
      and any due retry timer, at or after it activates, however recent the
      last navigation. */
  lemma {:induction false} DeadlineForcesActivation(g: Gate, events: seq<Event>, k: nat)
    requires Armed(g)
    requires k < |events| && events[k].at >= g.deadline.value
    requires events[k].SkipWaitingAt? || TimerDueAt(g, events, k)
    ensures Run(g, events).activated
    decreases |events|
  {
    var next := Apply(g, events[0]);
    if k == 0 {
      assert events[..0] == [];
      assert next.activated;
      ActivationSticks(next, events[1..]);
    } else {
      assert Armed(next) && next.deadline == g.deadline;
      assert events[..k][0] == events[0] && events[..k][1..] == events[1..][..k - 1];
      DeadlineForcesActivation(next, events[1..], k - 1);
    }
  }

  /** The time of the latest navigation among `events`, or `from` when
      there is none. */
  function LastNav(from: int, events: seq<Event>): int
    decreases |events|
  {
    if events == [] then from
    else LastNav(if events[0].NavigationAt? then events[0].at else from, events[1..])
  }

  /** Only navigations move `LAST_NAV_AT`: after any run it holds the time
      of the latest navigation. */
  lemma {:induction false} RunTracksLastNav(g: Gate, events: seq<Event>)
    ensures Run(g, events).lastNavAt == LastNav(g.lastNavAt, events)
    decreases |events|
  {
    if events != [] {
      RunTracksLastNav(Apply(g, events[0]), events[1..]);
    }
  }

  /** Deferral: while the user keeps navigating, so that every attempt and
      every timer falls within the quiet window of the latest navigation
      before it, and all of it before the armed deadline, the worker is
      never activated. */
  lemma {:induction false} QuietRunDefers(g: Gate, events: seq<Event>)
    requires Armed(g) && !g.activated
    requires forall i :: 0 <= i < |events| ==> events[i].at < g.deadline.value
    requires forall i :: 0 <= i < |events| && !events[i].NavigationAt? ==>
      events[i].at - LastNav(g.lastNavAt, events[..i]) <= QUIET_WINDOW_MS
    ensures !Run(g, events).activated
    decreases |events|
  {
    if events != [] {
      assert LastNav(g.lastNavAt, events[..0]) == g.lastNavAt;
      var next := Apply(g, events[0]);
      assert !next.activated && Armed(next) && next.deadline == g.deadline;
      assert next.lastNavAt == if events[0].NavigationAt? then events[0].at else g.lastNavAt;
      forall i | 0 <= i < |events[1..]| && !events[1..][i].NavigationAt?
        ensures events[1..][i].at - LastNav(next.lastNavAt, events[1..][..i]) <= QUIET_WINDOW_MS
      {
        assert events[1..][i] == events[i + 1];
        assert events[..i + 1][0] == events[0] && events[..i + 1][1..] == events[1..][..i];
      }
      forall i | 0 <= i < |events[1..]|
        ensures events[1..][i].at < next.deadline.value
      {
        assert events[1..][i] == events[i + 1];
      }
      QuietRunDefers(next, events[1..]);
    }
  }

  /** For instance: a navigation at 7 s pushes the quiet window of a
      navigation at 0 s out to 15 s, so an attempt at 12 s is deferred. */
  lemma NavigationExtendsQuietWindow()
    ensures !Run(Gate(0, Some(HARD_DEADLINE_MS), None, false), [NavigationAt(7000), SkipWaitingAt(12000)]).activated
  {
    var events := [NavigationAt(7000), SkipWaitingAt(12000)];
    assert events[..1] == [NavigationAt(7000)];
    assert LastNav(0, events[..1]) == 7000;
    QuietRunDefers(Gate(0, Some(HARD_DEADLINE_MS), None, false), events);
  }

  /** A first deferred attempt arms the deadline one hard horizon later and
      schedules exactly one retry. */
  lemma FirstDeferralArms(g: Gate, now: int)
    requires !Armed(g) && !CanActivate(g, now)
    ensures Attempt(g, now).deadline == Some(now + HARD_DEADLINE_MS)
    ensures Attempt(g, now).timer == Some(now + RETRY_MS)
    ensures !Attempt(g, now).activated <==> !g.activated
  {
  }
}

=== FILE: cache_storage.dfy ===
/** The browser's Cache Storage as the worker uses it: named containers,
    kept in the order they were created, each mapping a request URL to a
    stored response. */
module CacheStorage {
  import opened Common
  import opened Http

  /** The generation tag is a literal of the script; there is no derivation
      from the worker's location and no sanitising. */
  const CACHE_VERSION := "v1763436837512"
  /** The current versioned container. */
  const CACHE_NAME := "pwa-cache-" + CACHE_VERSION

  /** One cache container: request URL to stored response. */
  type Container = map<string, Response>

  datatype Storage = Storage(names: seq<string>, entries: map<string, Container>) {
    /** `caches.keys()` lists each container once, and exactly the
        containers that exist. */
    predicate Valid() {
      && Distinct(names)
      && (forall n :: n in names ==> n in entries)
      && (forall n :: n in entries ==> n in names)
    }
  }

  /** The result of one handler step: the new storage and the answer. */
  datatype Step = Step(storage: Storage, answer: Answer)

  predicate Distinct(xs: seq<string>) {
    forall i, j :: 0 <= i < j < |xs| ==> xs[i] != xs[j]
  }

  /** `xs` with every occurrence of `x` removed, order kept. */
  function Without(xs: seq<string>, x: string): (r: seq<string>)
    ensures forall y :: y in r <==> y in xs && y != x
    ensures Distinct(xs) ==> Distinct(r)
    ensures x !in xs ==> r == xs
  {
    if xs == [] then []
    else if xs[0] == x then Without(xs[1..], x)
    else
      var rest := Without(xs[1..], x);
      assert Distinct(xs) ==> xs[0] !in xs[1..];
      [xs[0]] + rest
  }

  /** Removing a name from a listing made of two parts removes it from each
      part and keeps the parts in order; with `Without([y], x) == [y]` for
      `y != x`, the survivors keep their relative order. */
  lemma {:induction false} WithoutKeepsOrder(xs: seq<string>, ys: seq<string>, x: string)
    ensures Without(xs + ys, x) == Without(xs, x) + Without(ys, x)
    ensures forall y :: y != x ==> Without([y], x) == [y]
    decreases |xs|
  {
    if xs != [] {
      var zs := xs + ys;
      assert zs[0] == xs[0] && zs[1..] == xs[1..] + ys;
      WithoutKeepsOrder(xs[1..], ys, x);
      if xs[0] == x {
        assert Without(zs, x) == Without(zs[1..], x);
        assert Without(xs, x) == Without(xs[1..], x);
      } else {
        assert Without(zs, x) == [xs[0]] + Without(zs[1..], x);
        assert Without(xs, x) == [xs[0]] + Without(xs[1..], x);
      }
    } else {
      assert xs + ys == ys;
    }
    forall y | y != x ensures Without([y], x) == [y] {
      assert [y][1..] == [];
    }
  }

  /** `caches.open(name)`: the container, created empty and placed last
      in creation order when it does not exist yet. */
  function Open(s: Storage, name: string): (r: Storage)
    requires s.Valid()
    ensures r.Valid()
    ensures name in r.entries
    ensures name in s.entries ==> r == s
    ensures name !in s.entries ==> r.names == s.names + [name]
    ensures name !in s.entries ==> r.entries[name] == map[]
    ensures forall n :: n in r.entries <==> n in s.entries || n == name
    ensures forall n :: n in s.entries ==> r.entries[n] == s.entries[n]
  {
    if name in s.entries then s
    else
      assert forall i :: 0 <= i < |s.names| ==> s.names[i] in s.entries;
      Storage(s.names + [name], s.entries[name := map[]])
  }

  /** `caches.delete(name)`; deleting a container that does not exist
      changes nothing. */
  function Delete(s: Storage, name: string): (r: Storage)
    requires s.Valid()
    ensures r.Valid()
    ensures forall n :: n in r.entries <==> n in s.entries && n != name
    ensures forall n :: n in r.entries ==> r.entries[n] == s.entries[n]
    ensures name !in s.entries ==> r == s
  {
    Storage(Without(s.names, name), s.entries - {name})
  }

  /** `caches.delete` keeps the surviving containers in creation order:
      whatever part of the listing came before or after, the survivors of
      each part stay in that order. */
  lemma DeleteKeepsOrder(s: Storage, name: string, before: seq<string>, after: seq<string>)
    requires s.Valid() && s.names == before + after
    ensures Delete(s, name).names == Without(before, name) + Without(after, name)
  {
    WithoutKeepsOrder(before, after, name);
  }

  /** `cache.put(url, resp)` on an open container. */
  function Put(s: Storage, name: string, url: string, resp: Response): (r: Storage)
    requires s.Valid() && name in s.entries
    ensures r.Valid()
    ensures r.names == s.names
    ensures r.entries.Keys == s.entries.Keys
    ensures url in r.entries[name] && r.entries[name][url] == resp
    ensures forall u :: u in s.entries[name] && u != url ==> u in r.entries[name] && r.entries[name][u] == s.entries[name][u]
    ensures forall u :: u in r.entries[name] ==> u == url || u in s.entries[name]
    ensures forall n :: n in s.entries && n != name ==> r.entries[n] == s.entries[n]
  {
    Storage(s.names, s.entries[name := s.entries[name][url := resp]])
  }

  /** `cache.delete(url)` on an open container. */
  function DeleteEntry(s: Storage, name: string, url: string): (r: Storage)
    requires s.Valid() && name in s.entries
    ensures r.Valid()
    ensures r.names == s.names
    ensures r.entries.Keys == s.entries.Keys
    ensures url !in r.entries[name]
    ensures forall u :: u in r.entries[name] <==> u in s.entries[name] && u != url
    ensures forall u :: u in r.entries[name] ==> r.entries[name][u] == s.entries[name][u]
    ensures forall n :: n in s.entries && n != name ==> r.entries[n] == s.entries[n]
  {
    Storage(s.names, s.entries[name := s.entries[name] - {url}])
  }

  /** The stored entry for `url` in container `name`, if both exist. */
  function Lookup(s: Storage, name: string, url: string): (r: Option<Response>)
    ensures r.Some? <==> name in s.entries && url in s.entries[name]
  {
    if name in s.entries && url in s.entries[name] then Some(s.entries[name][url]) else None
  }

  /** The container listed at index `k` exists and holds `url`. */
  predicate HoldsAt(names: seq<string>, entries: map<string, Container>, url: string, k: int)
    requires 0 <= k < |names|
  {
    names[k] in entries && url in entries[names[k]]
  }

  /** The first of `names` (in order) whose container holds `url`: the
      answer is the entry at the earliest index that holds it. */
  function FirstMatch(names: seq<string>, entries: map<string, Container>, url: string): (r: Option<Response>)
    ensures r.Some? <==> exists k :: 0 <= k < |names| && HoldsAt(names, entries, url, k)
    ensures r.Some? ==>
      exists k ::
        && 0 <= k < |names| && HoldsAt(names, entries, url, k)
        && r.value == entries[names[k]][url]
        && forall j :: 0 <= j < k ==> !HoldsAt(names, entries, url, j)
  {
    if names == [] then None
    else if names[0] in entries && url in entries[names[0]] then
      assert HoldsAt(names, entries, url, 0);
      Some(entries[names[0]][url])
    else
      var r := FirstMatch(names[1..], entries, url);
      assert forall k :: 0 < k < |names| ==> HoldsAt(names, entries, url, k) == HoldsAt(names[1..], entries, url, k - 1);
      if r.Some? then
        var k :| 0 <= k < |names[1..]| && HoldsAt(names[1..], entries, url, k)
          && r.value == entries[names[1..][k]][url]
          && forall j :: 0 <= j < k ==> !HoldsAt(names[1..], entries, url, j);
        assert HoldsAt(names, entries, url, k + 1);
        r
      else r
  }

  /** `caches.match(request)`: searches every container in creation order
      and answers nothing for a request whose method is not GET. For a GET,
      the entry of the earliest-created container holding the URL wins. */
  function Match(s: Storage, req: Request): (r: Option<Response>)
    ensures req.httpMethod != "GET" ==> r == None
    ensures req.httpMethod == "GET" ==> (r.Some? <==> exists n :: n in s.names && Lookup(s, n, req.url).Some?)
    ensures req.httpMethod == "GET" ==> r == FirstMatch(s.names, s.entries, req.url)
  {
    if req.httpMethod != "GET" then None
    else
      var r := FirstMatch(s.names, s.entries, req.url);
      assert r.Some? ==> exists n :: n in s.names && Lookup(s, n, req.url).Some? by {
        if r.Some? {
          var k :| 0 <= k < |s.names| && HoldsAt(s.names, s.entries, req.url, k);
          assert s.names[k] in s.names && Lookup(s, s.names[k], req.url).Some?;
        }
      }
      assert (exists n :: n in s.names && Lookup(s, n, req.url).Some?) ==> r.Some? by {
        if exists n :: n in s.names && Lookup(s, n, req.url).Some? {
          var n :| n in s.names && Lookup(s, n, req.url).Some?;
          var k :| 0 <= k < |s.names| && s.names[k] == n;
          assert HoldsAt(s.names, s.entries, req.url, k);
        }
      }
      r
  }

  /** An older generation shadows the current one: while a container
      created earlier still holds the URL, its entry is the one served. */
  lemma OlderGenerationShadows(s: Storage, older: string, req: Request)
    requires s.Valid() && req.httpMethod == "GET"
    requires s.names == [older, CACHE_NAME] && older != CACHE_NAME
    requires Lookup(s, older, req.url).Some? && Lookup(s, CACHE_NAME, req.url).Some?
    ensures Match(s, req) == Some(s.entries[older][req.url])
  {
    assert HoldsAt(s.names, s.entries, req.url, 0);
  }

  /** `caches.open(name).then(cache => cache.put(request, copy))` with the
      put not awaited: the container is opened in any case, but `put`
      rejects, and so stores nothing, for a request whose method is not GET
      or a 206 partial response. */
  function WriteBack(s: Storage, name: string, req: Request, resp: Response): (r: Storage)
    requires s.Valid()
    ensures r.Valid()
    ensures name in r.entries
    ensures r.names == Open(s, name).names && r.entries.Keys == Open(s, name).entries.Keys
    ensures req.httpMethod == "GET" && resp.status != 206 ==> Lookup(r, name, req.url) == Some(resp)
    ensures forall u :: u != req.url ==> Lookup(r, name, u) == Lookup(s, name, u)
    ensures !(req.httpMethod == "GET" && resp.status != 206) ==> r == Open(s, name)
    ensures forall n :: n in s.entries && n != name ==> n in r.entries && r.entries[n] == s.entries[n]
  {
    var openedStorage := Open(s, name);
    if req.httpMethod == "GET" && resp.status != 206 then Put(openedStorage, name, req.url, resp) else openedStorage
  }
}

=== FILE: common.dfy ===
/** Small shared vocabulary: an optional value and the string tests the
    worker applies to URLs and pathnames (`startsWith`, `endsWith`,
    `includes`, and the ASCII case folding of a case-insensitive regex). */
module Common {

  datatype Option<+T> = None | Some(value: T)

  /** `s.startsWith(prefix)` */
  predicate StartsWith(s: string, prefix: string) {
    |prefix| <= |s| && s[..|prefix|] == prefix
  }

  /** `s.endsWith(suffix)` */
  predicate EndsWith(s: string, suffix: string) {
    |suffix| <= |s| && s[|s| - |suffix|..] == suffix
  }

  /** `t` occurs in `s` starting at index `i`. */
  predicate OccursAt(s: string, t: string, i: int) {
    0 <= i && i + |t| <= |s| && s[i..i + |t|] == t
  }

  /** `s.includes(t)`, searched left to right. */
  predicate Contains(s: string, t: string)
    decreases |s|
  {
    StartsWith(s, t) || (|s| > 0 && Contains(s[1..], t))
  }

  /** Any occurrence of `t` is found by the left-to-right search. */
  lemma {:induction false} OccursImpliesContains(s: string, t: string, i: int)
    requires OccursAt(s, t, i)
    ensures Contains(s, t)
    decreases i
  {
    if i > 0 {
      assert s[1..][i - 1..i - 1 + |t|] == s[i..i + |t|];
      OccursImpliesContains(s[1..], t, i - 1);
    }
  }

  /** The left-to-right search finds `t` exactly when some index holds it. */
  lemma {:induction false} ContainsIffOccurs(s: string, t: string)
    ensures Contains(s, t) <==> exists i :: OccursAt(s, t, i)
    decreases |s|
  {
    if StartsWith(s, t) {
      assert OccursAt(s, t, 0);
    } else if |s| > 0 {
      ContainsIffOccurs(s[1..], t);
      if Contains(s[1..], t) {
        var i :| OccursAt(s[1..], t, i);
        assert s[i + 1..i + 1 + |t|] == s[1..][i..i + |t|];
        assert OccursAt(s, t, i + 1);
      }
    }
    if exists i :: OccursAt(s, t, i) {
      var i :| OccursAt(s, t, i);
      OccursImpliesContains(s, t, i);
    }
  }

  /** A string that ends with `a + b` also ends with `b`. */
  lemma EndsWithSuffix(s: string, a: string, b: string)
    requires EndsWith(s, a + b)
    ensures EndsWith(s, b)
  {
    assert s[|s| - |b|..] == s[|s| - |a + b|..][|a|..];
  }

  /** ASCII lower-casing, the folding a `/i` regex without the `u` flag
      applies to the ASCII letters it compares. */
  function LowerChar(c: char): (r: char)
    ensures 'A' <= c <= 'Z' ==> 'a' <= r <= 'z' && r as int - c as int == 32
    ensures !('A' <= c <= 'Z') ==> r == c
  {
    if 'A' <= c <= 'Z' then (c as int + 32) as char else c
  }

  function Lower(s: string): (r: string)
    ensures |r| == |s|
    ensures forall i :: 0 <= i < |s| ==> r[i] == LowerChar(s[i])
  {
    seq(|s|, i requires 0 <= i < |s| => LowerChar(s[i]))
  }
}

=== FILE: http.dfy ===
/** The request and response values the worker sees, reduced to the parts
    its decisions read. */
module Http {
  import opened Common
  import opened JsonValues

  /** `request.mode` */
  datatype Mode = Navigate | SameOrigin | NoCors | CorsMode

  /** An intercepted request: the full `url` (for `endsWith`/`includes`)
      and its parsed `pathname`. */
  datatype Request = Request(mode: Mode, httpMethod: string, url: string, pathname: string)

  /** `response.type`; `Default` is the type of `new Response(...)`. */
  datatype Kind = Basic | Cors | Default | Opaque | OpaqueRedirect | Error

  datatype Body = NoBody | Text(text: string) | JsonText(json: Json)

  datatype Response = Response(status: int, kind: Kind, contentType: Option<string>, body: Body)

  /** What the network does with one `fetch`: resolve with a response, or
      reject. */
  datatype NetOutcome = Ok(response: Response) | Fail

  /** What the fetch handler hands back to the browser:
      - `Fallthrough`: `respondWith` is not called; the browser fetches itself;
      - `Reply(r)`: the promise given to `respondWith` resolves with `r`;
      - `NoEntry`: it resolves with `undefined` (a cache miss), which the
        browser turns into a network error;
      - `NetworkError`: it rejects. */
  datatype Answer = Fallthrough | Reply(response: Response) | NoEntry | NetworkError

  const JSON_TYPE := "application/json"
  /** The content type `new Response(string)` gets when no header is given. */
  const TEXT_TYPE := "text/plain;charset=UTF-8"

  /** `new Response(JSON.stringify(j), {status, headers: {'Content-Type': 'application/json'}})` */
  function JsonResponse(status: int, j: Json): Response {
    Response(status, Default, Some(JSON_TYPE), JsonText(j))
  }

  /** `new Response('Offline', {status: 503})` */
  function OfflineResponse(): Response {
    Response(503, Default, Some(TEXT_TYPE), Text("Offline"))
  }
}

=== FILE: json.dfy ===
/** JSON values as `JSON.parse` produces them, and the two JavaScript notions
    the worker applies to them: truthiness and property access. */
module JsonValues {
  import opened Common

  /** Numbers are kept integral: the worker only ever tests them for
      truthiness. An object maps each key to the last value given for it. */
  datatype Json =
    | JNull
    | JBool(b: bool)
    | JNum(n: int)
    | JStr(s: string)
    | JArr(elems: seq<Json>)
    | JObj(fields: map<string, Json>)

  /** `!value` in JavaScript: null, false, 0 and "" are falsy; every array
      and object is truthy. */
  predicate Falsy(j: Json) {
    j == JNull || j == JBool(false) || j == JNum(0) || j == JStr("")
  }

  /** `typeof value === 'object'` for a non-null value. */
  predicate IsObject(j: Json) {
    j.JObj? || j.JArr?
  }

  /** `value[key]` for the keys the worker reads (`token`, `type`), which no
      array, string, number or prototype supplies; `None` stands for
      `undefined`. */
  function Member(j: Json, key: string): (r: Option<Json>)
    ensures r.Some? <==> j.JObj? && key in j.fields
  {
    if j.JObj? && key in j.fields then Some(j.fields[key]) else None
  }
}

=== FILE: lifecycle.dfy ===
/** The install and activate handlers' effect on cache storage: install
    seeds the current container with the app shell, activate deletes every
    other container. */
module Lifecycle {
  import opened Common
  import opened Http
  import opened CacheStorage
  import TokenRelay

  /** `cache.addAll` stores nothing unless every response is `ok` (status
      200 to 299) and none is a 206 partial response. */
  predicate AddAllAccepts(net: NetOutcome) {
    net.Ok? && 200 <= net.response.status <= 299 && net.response.status != 206
  }

  datatype Installed = Installed(storage: Storage, ok: bool)

  /** `caches.open(CACHE_NAME).then(cache => cache.addAll(['/', '/index.html']))`,
      given what the network answers for the two shell routes. The container
      is created in any case; the routes are stored together or not at all,
      and a failure fails the install. */
  function Install(s: Storage, origin: string, root: NetOutcome, index: NetOutcome): (r: Installed)
    requires s.Valid()
    ensures r.storage.Valid()
    ensures CACHE_NAME in r.storage.entries
    ensures r.ok <==> AddAllAccepts(root) && AddAllAccepts(index)
    ensures r.ok ==> Lookup(r.storage, CACHE_NAME, origin + "/index.html") == Some(index.response)
    ensures r.ok ==> Lookup(r.storage, CACHE_NAME, origin + "/") == Some(root.response)
    ensures !r.ok ==> r.storage == Open(s, CACHE_NAME)
    ensures r.storage.names == Open(s, CACHE_NAME).names
    ensures forall u :: u != origin + "/" && u != origin + "/index.html" ==>
      Lookup(r.storage, CACHE_NAME, u) == Lookup(s, CACHE_NAME, u)
    ensures forall n :: n in s.entries && n != CACHE_NAME ==> n in r.storage.entries && r.storage.entries[n] == s.entries[n]
  {
    assert |origin + "/"| != |origin + "/index.html"|;
    var shell := Open(s, CACHE_NAME);
    if AddAllAccepts(root) && AddAllAccepts(index) then
      var withRoot := Put(shell, CACHE_NAME, origin + "/", root.response);
      Installed(Put(withRoot, CACHE_NAME, origin + "/index.html", index.response), true)
    else Installed(shell, false)
  }

  /** One iteration of activate: `if (name !== CACHE_NAME) caches.delete(name)`. */
  function DropIfStale(s: Storage, name: string): (r: Storage)
    requires s.Valid()
    ensures r.Valid()
    ensures forall n :: n in r.entries <==> n in s.entries && (n == CACHE_NAME || n != name)
    ensures forall n :: n in r.entries ==> r.entries[n] == s.entries[n]
  {
    if name != CACHE_NAME then Delete(s, name) else s
  }

  /** Activate over the container names listed so far, in order. */
  function Reclaim(s: Storage, names: seq<string>): (r: Storage)
    requires s.Valid()
    ensures r.Valid()
    ensures r.entries.Keys <= s.entries.Keys
    ensures CACHE_NAME in s.entries ==> CACHE_NAME in r.entries
    decreases |names|
  {
    if names == [] then s
    else DropIfStale(Reclaim(s, names[..|names| - 1]), names[|names| - 1])
  }

  /** The loop's step: reclaiming one more listed name. */
  lemma ReclaimStep(s: Storage, names: seq<string>, k: nat)
    requires s.Valid() && k < |names|
    ensures Reclaim(s, names[..k + 1]) ==
      if names[k] != CACHE_NAME then Delete(Reclaim(s, names[..k]), names[k]) else Reclaim(s, names[..k])
  {
    assert names[..k + 1][..k] == names[..k];
  }

  /** Reclaiming over `names` removes exactly the listed containers other
      than `CACHE_NAME`, and leaves every surviving container's entries as
      they were. */
  lemma {:induction false} ReclaimRemovesListed(s: Storage, names: seq<string>)
    requires s.Valid()
    ensures forall n :: n in Reclaim(s, names).entries <==> n in s.entries && (n == CACHE_NAME || n !in names)
    ensures forall n :: n in Reclaim(s, names).entries ==> Reclaim(s, names).entries[n] == s.entries[n]
    decreases |names|
  {
    if names != [] {
      var init := names[..|names| - 1];
      ReclaimRemovesListed(s, init);
      assert forall n :: n in names <==> n in init || n == names[|names| - 1];
    }
  }

  /** The token container is not the current versioned container. */
  lemma TokenContainerIsNotCurrent()
    ensures TokenRelay.TOKEN_CACHE_NAME != CACHE_NAME
  {
    assert TokenRelay.TOKEN_CACHE_NAME[0] == 'a' && CACHE_NAME[0] == 'p';
  }

  /** After activate only the current container can remain, with all its
      entries; the token container is deleted like any other. */
  lemma ActivateLeavesOnlyCurrent(s: Storage)
    requires s.Valid()
    ensures Reclaim(s, s.names).entries.Keys <= {CACHE_NAME}
    ensures TokenRelay.TOKEN_CACHE_NAME !in Reclaim(s, s.names).entries
    ensures CACHE_NAME in s.entries ==> Reclaim(s, s.names).entries == map[CACHE_NAME := s.entries[CACHE_NAME]]
  {
    ReclaimRemovesListed(s, s.names);
    TokenContainerIsNotCurrent();
  }

  /** A valid storage whose only possible container is `c` lists `c`
      alone, or nothing. */
  lemma SingleContainerListing(r: Storage, c: string)
    requires r.Valid() && r.entries.Keys <= {c}
    ensures r.names == if c in r.entries then [c] else []
  {
    forall i | 0 <= i < |r.names| ensures r.names[i] == c && c in r.entries {
      assert r.names[i] in r.names;
    }
    assert |r.names| > 0 ==> r.names[0] == c && c in r.entries;
    if c in r.entries {
      var k :| 0 <= k < |r.names| && r.names[k] == c;
      forall i | 0 <= i < |r.names| && r.names[i] == c ensures i == k {
      }
      assert r.names[0] == c && r.names[|r.names| - 1] == c;
      assert r.names == [r.names[0]];
    }
  }

  /** After activate `caches.keys()` lists the current container alone, or
      nothing if it did not exist. */
  lemma ActivateListsOnlyCurrent(s: Storage)
    requires s.Valid()
    ensures Reclaim(s, s.names).names == if CACHE_NAME in s.entries then [CACHE_NAME] else []
  {
    ActivateLeavesOnlyCurrent(s);
    ReclaimRemovesListed(s, s.names);
    var r := Reclaim(s, s.names);
    assert CACHE_NAME in r.entries <==> CACHE_NAME in s.entries;
    SingleContainerListing(r, CACHE_NAME);
  }

  /** Reclaiming names that are already gone, or current, changes nothing. */
  lemma {:induction false} ReclaimNothingStale(s: Storage, names: seq<string>)
    requires s.Valid()
    requires forall n :: n in names ==> n == CACHE_NAME || n !in s.entries
    ensures Reclaim(s, names) == s
    decreases |names|
  {
    if names != [] {
      var init := names[..|names| - 1];
      assert forall n :: n in init ==> n in names;
      ReclaimNothingStale(s, init);
    }
  }

  /** Running activate a second time changes nothing. */
  lemma ActivateIdempotent(s: Storage)
    requires s.Valid()
    ensures Reclaim(Reclaim(s, s.names), Reclaim(s, s.names).names) == Reclaim(s, s.names)
  {
    var r := Reclaim(s, s.names);
    ActivateListsOnlyCurrent(s);
    ReclaimNothingStale(r, r.names);
  }
}

=== FILE: promotions_api.dfy ===
/** The promotions function: a stateless handler that answers a request for
    the promotions path with a one-item payload tagged by a coarse version,
    and answers a conditional request whose tag is still current with 304.
    The clock is the parameter `now` (milliseconds since the epoch). */
module PromotionsApi {
  import opened Common
  import opened JsonValues

  const PROMOTIONS := "/api/promotions"
  const DOUBLED_PROMOTIONS := "/api/api/promotions"

  /* ---------------- The version tag ---------------- */

  function DigitChar(d: nat): (c: char)
    requires d < 10
    ensures '0' <= c <= '9' && c as int - '0' as int == d
  {
    ('0' as int + d) as char
  }

  predicate IsDigit(c: char) {
    '0' <= c <= '9'
  }

  /** `String(n)` for a non-negative integer: its decimal digits, most
      significant first, without leading zeros. */
  function Decimal(n: nat): (r: string)
    ensures |r| >= 1
    ensures forall i :: 0 <= i < |r| ==> IsDigit(r[i])
    ensures n >= 10 ==> r[0] != '0'
    decreases n
  {
    if n < 10 then [DigitChar(n)] else Decimal(n / 10) + [DigitChar(n % 10)]
  }

  /** The number a string of decimal digits denotes: the inverse of
      `Decimal`. */
  function DecimalValue(s: string): nat
    decreases |s|
  {
    if s == [] then 0
    else
      var last := s[|s| - 1] as int - '0' as int;
      DecimalValue(s[..|s| - 1]) * 10 + (if 0 <= last < 10 then last else 0)
  }

  /** Reading the digits back gives the number. */
  lemma {:induction false} DecimalRoundTrip(n: nat)
    ensures DecimalValue(Decimal(n)) == n
    decreases n
  {
    if n >= 10 {
      var front := Decimal(n / 10);
      assert (front + [DigitChar(n % 10)])[..|front|] == front;
      DecimalRoundTrip(n / 10);
    }
  }

  /** Distinct numbers have distinct decimal forms. */
  lemma DecimalInjective(m: nat, n: nat)
    requires Decimal(m) == Decimal(n)
    ensures m == n
  {
    DecimalRoundTrip(m);
    DecimalRoundTrip(n);
  }

  function Pow10(k: nat): (p: nat)
    ensures p >= 1
  {
    if k == 0 then 1 else 10 * Pow10(k - 1)
  }

  /** A number of `k + 1` digits has a decimal form of length `k + 1`. */
  lemma {:induction false} DecimalLength(n: nat, k: nat)
    requires Pow10(k) <= n < Pow10(k + 1)
    ensures |Decimal(n)| == k + 1
    decreases k
  {
    if k > 0 {
      assert Pow10(k) == 10 * Pow10(k - 1);
      assert Pow10(k + 1) == 10 * Pow10(k);
      DecimalLength(n / 10, k - 1);
    }
  }

  /** `String(n)` for an integer below 10^21 in magnitude, which covers
      every `Date.now()` reading; beyond that JavaScript writes exponential
      form, which is not modelled. */
  function IntToString(n: int): (r: string)
    ensures n >= 0 ==> r == Decimal(n)
    ensures n < 0 ==> r == "-" + Decimal(-n)
  {
    if n < 0 then "-" + Decimal(-n) else Decimal(n)
  }

  /** The integer a decimal form with an optional leading minus denotes. */
  function IntValue(s: string): int {
    if |s| > 0 && s[0] == '-' then -(DecimalValue(s[1..]) as int) else DecimalValue(s)
  }

  /** Reading `String(n)` back gives `n`, sign included. */
  lemma IntToStringRoundTrip(n: int)
    ensures IntValue(IntToString(n)) == n
  {
    if n < 0 {
      assert ("-" + Decimal(-n))[1..] == Decimal(-n);
      DecimalRoundTrip(-n);
    } else {
      assert IsDigit(Decimal(n)[0]);
      DecimalRoundTrip(n);
    }
  }

  /** `String(Date.now()).slice(0, 10)`: at most ten characters, the head
      of the clock's decimal form, never empty. */
  function Version(now: int): (r: string)
    ensures 1 <= |r| <= 10
    ensures StartsWith(IntToString(now), r)
    ensures |IntToString(now)| > 10 ==> |r| == 10
    ensures |IntToString(now)| <= 10 ==> r == IntToString(now)
  {
    var s := IntToString(now);
    if |s| <= 10 then s else s[..10]
  }

  /** For a thirteen-digit millisecond clock the version is the clock in
      whole seconds. */
  lemma VersionIsSeconds(now: int)
    requires Pow10(12) <= now < Pow10(13)
    ensures Version(now) == Decimal(now / 1000)
  {
    var secs := now / 1000;
    assert Pow10(13) == 1000 * Pow10(10) by {
      assert Pow10(13) == 10 * Pow10(12) && Pow10(12) == 10 * Pow10(11) && Pow10(11) == 10 * Pow10(10);
    }
    assert Pow10(12) == 1000 * Pow10(9) by {
      assert Pow10(12) == 10 * Pow10(11) && Pow10(11) == 10 * Pow10(10) && Pow10(10) == 10 * Pow10(9);
    }
    DecimalLength(secs, 9);
    var tens := now / 10;
    var hundreds := tens / 10;
    assert hundreds / 10 == secs;
    var front := Decimal(secs);
    assert Decimal(hundreds) == front + [DigitChar(hundreds % 10)];
    assert Decimal(tens) == front + [DigitChar(hundreds % 10)] + [DigitChar(tens % 10)];
    assert Decimal(now) == front + [DigitChar(hundreds % 10)] + [DigitChar(tens % 10)] + [DigitChar(now % 10)];
    assert Decimal(now)[..10] == front;
  }

  /** Two clock readings within the same second of a thirteen-digit clock
      give the same version; readings in different seconds give different
      versions. */
  lemma VersionChangesEverySecond(now1: int, now2: int)
    requires Pow10(12) <= now1 < Pow10(13) && Pow10(12) <= now2 < Pow10(13)
    ensures Version(now1) == Version(now2) <==> now1 / 1000 == now2 / 1000
  {
    VersionIsSeconds(now1);
    VersionIsSeconds(now2);
    if Version(now1) == Version(now2) {
      DecimalInjective(now1 / 1000, now2 / 1000);
    }
  }

  /* ---------------- The path test ---------------- */

  /** A regex word character, `[A-Za-z0-9_]`. */
  predicate IsWordChar(c: char) {
    ('a' <= c <= 'z') || ('A' <= c <= 'Z') || ('0' <= c <= '9') || c == '_'
  }

  /** `\b` at position `k`: a word character on exactly one side. */
  predicate BoundaryAt(s: string, k: int)
    requires 0 <= k <= |s|
  {
    (k > 0 && IsWordChar(s[k - 1])) != (k < |s| && IsWordChar(s[k]))
  }

  /** The regex `<lit>\b` tested against `s`: `lit` occurs somewhere and is
      followed by a word boundary. */
  predicate MatchesWordEnded(s: string, lit: string) {
    exists i | 0 <= i <= |s| - |lit| :: OccursAt(s, lit, i) && BoundaryAt(s, i + |lit|)
  }

  /** The handler's promotions test, with both of its regexes. */
  predicate IsPromotions(path: string) {
    MatchesWordEnded(path, PROMOTIONS) || MatchesWordEnded(path, DOUBLED_PROMOTIONS)
  }

  /** The doubled-prefix regex adds nothing: its every match contains a
      match of the first. */
  lemma DoubledPrefixSubsumed(path: string)
    ensures MatchesWordEnded(path, DOUBLED_PROMOTIONS) ==> MatchesWordEnded(path, PROMOTIONS)
    ensures IsPromotions(path) <==> MatchesWordEnded(path, PROMOTIONS)
  {
    if MatchesWordEnded(path, DOUBLED_PROMOTIONS) {
      var i :| OccursAt(path, DOUBLED_PROMOTIONS, i) && BoundaryAt(path, i + |DOUBLED_PROMOTIONS|);
      assert |DOUBLED_PROMOTIONS| == 19 && |PROMOTIONS| == 15;
      assert OccursAt(path, DOUBLED_PROMOTIONS, i);
      assert 0 <= i && i + 19 <= |path|;
      assert path[i..i + 19] == DOUBLED_PROMOTIONS;
      assert DOUBLED_PROMOTIONS[4..] == PROMOTIONS;
      assert path[i + 4..i + 19] == path[i..i + 19][4..];
      assert OccursAt(path, PROMOTIONS, i + 4);
    }
  }

  /** Since `/api/promotions` ends in a word character, the boundary after
      it means: the path ends there, or the next character is not a word
      character. */
  lemma PromotionsMatchIff(path: string)
    ensures IsPromotions(path) <==>
      exists i :: OccursAt(path, PROMOTIONS, i) && (i + 15 == |path| || !IsWordChar(path[i + 15]))
  {
    DoubledPrefixSubsumed(path);
    forall i | OccursAt(path, PROMOTIONS, i)
      ensures BoundaryAt(path, i + 15) <==> (i + 15 == |path| || !IsWordChar(path[i + 15]))
    {
      assert path[i + 14] == path[i..i + 15][14] == 's';
    }
  }

  /** The path alone, a sub-path, and the doubled prefix are promotions
      paths; a longer word such as `promotionsX` or `promotions_x` is not. */
  lemma PromotionsExamples()
    ensures IsPromotions("/api/promotions")
    ensures IsPromotions("/api/promotions/x")
    ensures IsPromotions("/api/api/promotions")
    ensures !IsPromotions("/api/promotionsX")
    ensures !IsPromotions("/api/promotions_x")
  {
    assert OccursAt("/api/promotions", PROMOTIONS, 0);
    assert OccursAt("/api/promotions/x", PROMOTIONS, 0);
    assert OccursAt("/api/api/promotions", PROMOTIONS, 4);
    PromotionsMatchIff("/api/promotionsX");
    NoLaterOccurrence("/api/promotionsX");
    PromotionsMatchIff("/api/promotions_x");
    NoLaterOccurrence("/api/promotions_x");
    PromotionsMatchIff("/api/promotions/x");
    PromotionsMatchIff("/api/api/promotions");
  }

  /** A string of at most seventeen characters whose second character is
      not `/` holds `/api/promotions` at index 0 at most. */
  lemma NoLaterOccurrence(s: string)
    requires |s| <= 17 && |s| >= 2 && s[1] != '/' && (|s| == 17 ==> s[2] != '/')
    ensures forall i :: OccursAt(s, PROMOTIONS, i) ==> i == 0
  {
    forall i | OccursAt(s, PROMOTIONS, i)
      ensures i == 0
    {
      assert s[i] == s[i..i + 15][0] == '/';
    }
  }

  /* ---------------- The handler ---------------- */

  /** What the function receives: `event.path` and `event.headers`, either
      of which may be missing. */
  datatype ApiEvent = ApiEvent(path: Option<string>, headers: Option<map<string, string>>)

  /** What it returns; `None` is a reply without a body. The body is kept as
      the value given to `JSON.stringify`. */
  datatype ApiReply = ApiReply(statusCode: int, headers: map<string, string>, body: Option<Json>)

  /** `event.path || ''` */
  function PathOf(e: ApiEvent): string {
    if e.path.Some? then e.path.value else ""
  }

  /** `(headers && (headers['if-none-match'] || headers['If-None-Match'])) || ''`:
      the lower-case key unless missing or empty, then the canonical
      spelling, otherwise the empty string. */
  function IfNoneMatch(headers: Option<map<string, string>>): (r: string)
    ensures headers.Some? && "if-none-match" in headers.value && headers.value["if-none-match"] != "" ==>
      r == headers.value["if-none-match"]
    ensures headers.Some? && !("if-none-match" in headers.value && headers.value["if-none-match"] != "") ==>
      r == if "If-None-Match" in headers.value then headers.value["If-None-Match"] else ""
    ensures r != "" ==> headers.Some? && exists k :: k in headers.value && headers.value[k] == r
    ensures headers.None? ==> r == ""
  {
    match headers
    case None => ""
    case Some(h) =>
      if "if-none-match" in h && h["if-none-match"] != "" then h["if-none-match"]
      else if "If-None-Match" in h then h["If-None-Match"]
      else ""
  }

  const JSON_HEADERS := map["Content-Type" := "application/json"]

  function NotFound(): ApiReply {
    ApiReply(404, JSON_HEADERS, Some(JObj(map["error" := JStr("Not Found")])))
  }

  /** The single promotion on offer. */
  function PremiumItem(): Json {
    JObj(map[
      "title" := JStr("Premium Chauffeur"),
      "subtitle" := JStr("Limited time offers"),
      "code" := JStr("PREMIUM"),
      "image" := JStr("/assets/premium_black_luxury_sedan_3e9f8e87-uoahuiu0.png")])
  }

  function Payload(version: string): Json {
    JObj(map["version" := JStr(version), "items" := JArr([PremiumItem()])])
  }

  /** `exports.handler`: 404 off the promotions path; 304 carrying only the
      tag when the request's tag equals the current version (plain string
      equality); otherwise 200 with the payload, its version repeated as
      the `ETag`, and `Cache-Control: no-cache`. */
  function Handler(e: ApiEvent, now: int): (r: ApiReply)
    ensures r.statusCode == 404 <==> !IsPromotions(PathOf(e))
    ensures r.statusCode == 304 <==> IsPromotions(PathOf(e)) && IfNoneMatch(e.headers) == Version(now)
    ensures r.statusCode in {200, 304, 404}
    ensures r.statusCode == 404 ==> r == NotFound()
    ensures r.statusCode == 304 ==> r.headers == map["ETag" := Version(now)] && r.body.None?
    ensures r.statusCode == 200 ==>
      && r.headers.Keys == {"Content-Type", "Cache-Control", "ETag"}
      && r.headers["Content-Type"] == "application/json"
      && r.headers["Cache-Control"] == "no-cache"
      && r.headers["ETag"] == Version(now)
      && r.body == Some(Payload(Version(now)))
  {
    var path := PathOf(e);
    if !IsPromotions(path) then NotFound()
    else
      var version := Version(now);
      if IfNoneMatch(e.headers) == version then ApiReply(304, map["ETag" := version], None)
      else
        ApiReply(200,
                 map["Content-Type" := "application/json", "Cache-Control" := "no-cache", "ETag" := version],
                 Some(Payload(version)))
  }

  /** A request that carries no If-None-Match header is never answered
      304, because the version is never empty. */
  lemma AbsentHeaderNever304(e: ApiEvent, now: int)
    requires e.headers.None? || ("if-none-match" !in e.headers.value && "If-None-Match" !in e.headers.value)
    ensures Handler(e, now).statusCode != 304
    ensures IsPromotions(PathOf(e)) ==> Handler(e, now).statusCode == 200
  {
  }

  /** A missing path is treated as the empty one, which is not found. */
  lemma MissingPathNotFound(headers: Option<map<string, string>>, now: int)
    ensures Handler(ApiEvent(None, headers), now) == NotFound()
  {
    assert !OccursAt("", PROMOTIONS, 0);
  }

  /** The 200 body's `version` field is the `ETag`, and it lists exactly one
      item. */
  lemma FullReplyCarriesItsTag(e: ApiEvent, now: int)
    requires Handler(e, now).statusCode == 200
    ensures var body := Handler(e, now).body.value;
      && Member(body, "version") == Some(JStr(Handler(e, now).headers["ETag"]))
      && Member(body, "items").Some? && Member(body, "items").value.JArr?
      && |Member(body, "items").value.elems| == 1
  {
  }

  /** Conditional revalidation: sending back the tag of a 200 reply, in
      either header spelling, yields 304 as long as the version has not
      moved on, and 200 with the new tag once it has. */
  lemma RevalidationRoundTrip(path: Option<string>, now1: int, now2: int, key: string)
    requires Handler(ApiEvent(path, None), now1).statusCode == 200
    requires key in {"if-none-match", "If-None-Match"}
    ensures var tag := Handler(ApiEvent(path, None), now1).headers["ETag"];
      var second := Handler(ApiEvent(path, Some(map[key := tag])), now2);
      && (Version(now2) == Version(now1) ==> second.statusCode == 304)
      && (Version(now2) != Version(now1) ==> second.statusCode == 200 && second.headers["ETag"] == Version(now2))
  {
  }

  /** Within one second of a thirteen-digit clock a revalidation is 304;
      in the next second it is a full 200 again. */
  lemma RevalidationPerSecond(path: string, now1: int, now2: int)
    requires IsPromotions(path)
    requires Pow10(12) <= now1 < Pow10(13) && Pow10(12) <= now2 < Pow10(13)
    ensures Handler(ApiEvent(Some(path), Some(map["if-none-match" := Version(now1)])), now2).statusCode
      == if now1 / 1000 == now2 / 1000 then 304 else 200
  {
    VersionChangesEverySecond(now1, now2);
  }
}

=== FILE: router.dfy ===
/** The fetch handler's classification chain: each intercepted request is
    assigned one route, the first test that matches winning. */
module Router {
  import opened Common
  import opened Http

  const TOKEN_ENDPOINT := "/__auth-token-cache__"

  /** The extensions of the asset regex `\.(?:js|css|...)$`, matched without
      regard to ASCII case. */
  const ASSET_EXTENSIONS: seq<string> := ["js", "css", "png", "jpg", "jpeg", "gif", "svg", "webp", "ico"]

  datatype Route =
    | Document        // navigation or `.html`: network first, response written back
    | TokenPost       // the token endpoint, by method
    | TokenGet
    | TokenDelete
    | Bypass          // not intercepted at all
    | Root            // `/`: network first, no write-back
    | WorkerScript    // the worker's own script: a `no-store` fetch
    | Asset           // cache first
    | Dynamic         // stale-while-revalidate

  /** The pathname ends in `.` followed by one of the asset extensions,
      compared case-insensitively. */
  predicate HasAssetExtension(pathname: string) {
    exists e :: e in ASSET_EXTENSIONS && EndsWith(Lower(pathname), "." + e)
  }

  /** `isAsset`: an asset extension, or anything under `/assets/`. */
  predicate IsAsset(pathname: string) {
    HasAssetExtension(pathname) || StartsWith(pathname, "/assets/")
  }

  predicate IsDocument(req: Request) {
    req.mode == Navigate || EndsWith(req.pathname, ".html")
  }

  predicate IsTokenRequest(req: Request) {
    EndsWith(req.url, TOKEN_ENDPOINT)
  }

  predicate IsBackendUrl(url: string) {
    Contains(url, "/api/") || Contains(url, "/limogrid")
  }

  /** The handler's if-chain, in source order. */
  function Classify(req: Request): (r: Route)
    ensures r == Document <==> IsDocument(req)
    ensures r in {TokenPost, TokenGet, TokenDelete} ==> IsTokenRequest(req)
    ensures r in {Root, WorkerScript, Asset, Dynamic} ==> req.httpMethod == "GET" && !IsBackendUrl(req.url)
    ensures r == Root ==> req.pathname == "/" || EndsWith(req.pathname, "/index.html")
    ensures r == WorkerScript ==> EndsWith(req.pathname, "/service-worker.js")
    ensures r == Asset ==> IsAsset(req.pathname)
    ensures r == Dynamic ==> !IsAsset(req.pathname)
  {
    if IsDocument(req) then Document
    else if IsTokenRequest(req) && req.httpMethod == "POST" then TokenPost
    else if IsTokenRequest(req) && req.httpMethod == "GET" then TokenGet
    else if IsTokenRequest(req) && req.httpMethod == "DELETE" then TokenDelete
    else if req.httpMethod != "GET" then Bypass
    else if IsBackendUrl(req.url) then Bypass
    else if req.pathname == "/" || EndsWith(req.pathname, "/index.html") then Root
    else if req.pathname == "/service-worker.js" || EndsWith(req.pathname, "/service-worker.js") then WorkerScript
    else if IsAsset(req.pathname) then Asset
    else Dynamic
  }

  /** Any navigation, and any pathname ending in `.html`, is a document
      request, whatever its method and even on the token endpoint. */
  lemma DocumentWinsOverEverything(req: Request)
    requires req.mode == Navigate || EndsWith(req.pathname, ".html")
    ensures Classify(req) == Document
  {
  }

  /** A pathname ending in `/index.html` is always caught by the `.html`
      test, so the root branch only ever serves the pathname `/`. */
  lemma RootIsOnlySlash(req: Request)
    ensures Classify(req) == Root ==> req.pathname == "/"
  {
    if EndsWith(req.pathname, "/index.html") {
      assert "/index.html" == "/index" + ".html";
      EndsWithSuffix(req.pathname, "/index", ".html");
    }
  }

  /** The token endpoint answers only POST, GET and DELETE; any other method
      on it falls through to the non-GET bypass. */
  lemma TokenRoutesExactly(req: Request)
    requires !IsDocument(req)
    ensures Classify(req) in {TokenPost, TokenGet, TokenDelete} <==>
      IsTokenRequest(req) && req.httpMethod in {"POST", "GET", "DELETE"}
    ensures IsTokenRequest(req) && req.httpMethod !in {"POST", "GET", "DELETE"} ==> Classify(req) == Bypass
  {
  }

  /** Requests passed through to the network untouched: exactly the
      non-document requests that are not GET (other than POST and DELETE on
      the token endpoint), and the non-document, non-token GETs whose URL
      names the backend. */
  lemma BypassExactly(req: Request)
    ensures Classify(req) == Bypass <==>
      && !IsDocument(req)
      && !(IsTokenRequest(req) && req.httpMethod in {"POST", "GET", "DELETE"})
      && (req.httpMethod != "GET" || IsBackendUrl(req.url))
  {
  }

  /** Among the GETs the worker serves itself (not documents, not the token
      endpoint, not the backend): the root route is exactly `/`, the
      worker's own script takes the no-store route, the remaining assets are
      cache first, and everything else is stale-while-revalidate. */
  lemma CachedRoutesExactly(req: Request)
    requires !IsDocument(req) && req.httpMethod == "GET" && !IsTokenRequest(req) && !IsBackendUrl(req.url)
    ensures Classify(req) == Root <==> req.pathname == "/"
    ensures Classify(req) == WorkerScript <==> EndsWith(req.pathname, "/service-worker.js")
    ensures Classify(req) == Asset <==>
      IsAsset(req.pathname) && req.pathname != "/" && !EndsWith(req.pathname, "/service-worker.js")
    ensures Classify(req) == Dynamic <==> !IsAsset(req.pathname) && req.pathname != "/"
  {
    RootIsOnlySlash(req);
    if EndsWith(req.pathname, "/service-worker.js") {
      WorkerScriptPathname(req.pathname);
    }
    if req.pathname == "/" {
      assert !EndsWith(req.pathname, "/service-worker.js");
    }
  }

  /** A string ending in a given suffix ends in that suffix's last character. */
  lemma LastCharOfSuffix(s: string, suffix: string)
    requires EndsWith(s, suffix) && |suffix| > 0
    ensures s[|s| - 1] == suffix[|suffix| - 1]
  {
    assert s[|s| - 1] == s[|s| - |suffix|..][|suffix| - 1];
  }

  /** Lower-casing keeps a suffix, lower-cased. */
  lemma LowerKeepsSuffix(s: string, suffix: string)
    requires EndsWith(s, suffix)
    ensures EndsWith(Lower(s), Lower(suffix))
  {
    assert Lower(s)[|s| - |suffix|..] == Lower(s[|s| - |suffix|..]);
  }

  /** The worker script's pathname carries the `.js` asset extension, and
      not the `.html` one. */
  lemma WorkerScriptPathname(p: string)
    requires EndsWith(p, "/service-worker.js")
    ensures IsAsset(p)
    ensures !EndsWith(p, ".html") && !EndsWith(p, "/index.html")
  {
    assert "/service-worker.js" == "/service-worker" + ".js";
    EndsWithSuffix(p, "/service-worker", ".js");
    LowerKeepsSuffix(p, ".js");
    assert Lower(".js") == "." + "js";
    assert "js" in ASSET_EXTENSIONS;
    LastCharOfSuffix(p, ".js");
    if EndsWith(p, ".html") {
      LastCharOfSuffix(p, ".html");
    }
    if EndsWith(p, "/index.html") {
      LastCharOfSuffix(p, "/index.html");
    }
  }

  /** The worker script matches the `.js` asset extension, yet is never
      served cache-first: its own branch comes first. */
  lemma WorkerScriptNeverAsset(req: Request)
    requires EndsWith(req.pathname, "/service-worker.js")
    ensures IsAsset(req.pathname)
    ensures Classify(req) != Asset
    ensures req.mode != Navigate && req.httpMethod == "GET" && !IsTokenRequest(req) && !IsBackendUrl(req.url) ==>
      Classify(req) == WorkerScript
  {
    WorkerScriptPathname(req.pathname);
  }

  /** Every casing of every listed extension is an asset extension: the
      regex carries the `i` flag, so `ext` counts whenever its ASCII
      lower-casing is on the list. */
  lemma AssetExtensionAnyCase(pathname: string, ext: string)
    requires Lower(ext) in ASSET_EXTENSIONS && EndsWith(pathname, "." + ext)
    ensures HasAssetExtension(pathname) && IsAsset(pathname)
  {
    LowerKeepsSuffix(pathname, "." + ext);
    assert Lower("." + ext) == "." + Lower(ext);
  }

  /** For instance an upper-case `.PNG`. */
  lemma AssetExtensionIgnoresCase(pathname: string)
    requires EndsWith(pathname, ".PNG")
    ensures IsAsset(pathname)
  {
    assert Lower("PNG") == "png";
    AssetExtensionAnyCase(pathname, "PNG");
  }
}

=== FILE: strategies.dfy ===
/** The four response strategies of the fetch handler, each one step over
    the cache storage and the outcome of the one network fetch it may issue.
    A background write-back is applied within the step. */
module Strategies {
  import opened Common
  import opened Http
  import opened CacheStorage

  /** Network first. On success the response is returned and, when
      `writeBack` is set, stored in `CACHE_NAME` whatever its status; on
      failure the answer is the bare `caches.match` result, with no
      synthetic fallback. */
  function NetworkFirst(s: Storage, req: Request, net: NetOutcome, writeBack: bool): (r: Step)
    requires s.Valid()
    ensures r.storage.Valid()
    ensures net.Ok? ==> r.answer == Reply(net.response)
    ensures net.Ok? && writeBack && req.httpMethod == "GET" && net.response.status != 206 ==>
      Lookup(r.storage, CACHE_NAME, req.url) == Some(net.response)
    ensures net.Fail? || !writeBack ==> r.storage == s
    ensures net.Ok? && writeBack ==> r.storage == WriteBack(s, CACHE_NAME, req, net.response)
    ensures net.Fail? ==> (r.answer.Reply? <==> Match(s, req).Some?)
    ensures net.Fail? ==> (r.answer.Reply? ==> Some(r.answer.response) == Match(s, req))
    ensures net.Fail? ==> (r.answer.NoEntry? <==> Match(s, req).None?)
  {
    match net
    case Ok(resp) =>
      Step(if writeBack then WriteBack(s, CACHE_NAME, req, resp) else s, Reply(resp))
    case Fail =>
      match Match(s, req)
      case Some(cached) => Step(s, Reply(cached))
      case None => Step(s, NoEntry)
  }

  /** `fetch(new Request(request, {cache: 'no-store'}))`: the network's
      answer, never the cache's. */
  function NetworkOnly(s: Storage, net: NetOutcome): Step {
    Step(s, if net.Ok? then Reply(net.response) else NetworkError)
  }

  /** Cache first: a hit is returned with no fetch and no write; a miss is
      fetched and not stored. */
  function CacheFirst(s: Storage, req: Request, net: NetOutcome): (r: Step)
    ensures r.storage == s
    ensures Match(s, req).Some? ==> r.answer == Reply(Match(s, req).value)
    ensures Match(s, req).None? ==> r.answer == NetworkOnly(s, net).answer
  {
    match Match(s, req)
    case Some(cached) => Step(s, Reply(cached))
    case None => NetworkOnly(s, net)
  }

  /** The write-back condition of stale-while-revalidate. */
  predicate Revalidates(resp: Response) {
    resp.status == 200 && resp.kind != Opaque
  }

  /** Stale-while-revalidate. The cached entry is returned when there is
      one, otherwise the network's answer, otherwise a 503 "Offline"; the
      network response is written back only when its status is 200 and it
      is not opaque. */
  function StaleWhileRevalidate(s: Storage, req: Request, net: NetOutcome): (r: Step)
    requires s.Valid()
    ensures r.storage.Valid()
    ensures Match(s, req).Some? ==> r.answer == Reply(Match(s, req).value)
    ensures Match(s, req).None? && net.Ok? ==> r.answer == Reply(net.response)
    ensures Match(s, req).None? && net.Fail? ==> r.answer == Reply(OfflineResponse())
    ensures net.Ok? && Revalidates(net.response) && req.httpMethod == "GET" ==>
      Lookup(r.storage, CACHE_NAME, req.url) == Some(net.response)
    ensures net.Ok? && Revalidates(net.response) ==> r.storage == WriteBack(s, CACHE_NAME, req, net.response)
    ensures !(net.Ok? && Revalidates(net.response)) ==> r.storage == s
  {
    var cached := Match(s, req);
    var storage :=
      if net.Ok? && Revalidates(net.response) then WriteBack(s, CACHE_NAME, req, net.response) else s;
    var answer :=
      if cached.Some? then Reply(cached.value)
      else if net.Ok? then Reply(net.response)
      else Reply(OfflineResponse());
    Step(storage, answer)
  }

  /** A cache-first hit does not depend on the network at all. */
  lemma CacheFirstHitIgnoresNetwork(s: Storage, req: Request, net1: NetOutcome, net2: NetOutcome)
    requires Match(s, req).Some?
    ensures CacheFirst(s, req, net1) == CacheFirst(s, req, net2)
  {
  }

  /** After a successful document fetch, a later network failure for the
      same GET request is answered from the cache rather than left empty. */
  lemma NetworkFirstWriteBackServesLaterFailure(s: Storage, req: Request, resp: Response)
    requires s.Valid() && req.httpMethod == "GET" && resp.status != 206
    ensures NetworkFirst(NetworkFirst(s, req, Ok(resp), true).storage, req, Fail, true).answer.Reply?
  {
    var s1 := NetworkFirst(s, req, Ok(resp), true).storage;
    assert Lookup(s1, CACHE_NAME, req.url) == Some(resp);
    assert CACHE_NAME in s1.names;
    assert Lookup(s1, CACHE_NAME, req.url).Some?;
  }

  /** After a revalidating fetch, the same request is a cache hit: it is
      then answered from the cache even with the network down. */
  lemma RevalidatedEntryServesOffline(s: Storage, req: Request, resp: Response)
    requires s.Valid() && req.httpMethod == "GET" && Revalidates(resp)
    ensures var s1 := StaleWhileRevalidate(s, req, Ok(resp)).storage;
      Match(s1, req).Some? && StaleWhileRevalidate(s1, req, Fail).answer == Reply(Match(s1, req).value)
  {
    var s1 := StaleWhileRevalidate(s, req, Ok(resp)).storage;
    assert Lookup(s1, CACHE_NAME, req.url) == Some(resp);
    assert CACHE_NAME in s1.names && Lookup(s1, CACHE_NAME, req.url).Some?;
  }
}

=== FILE: token_relay.dfy ===
/** The token relay: a one-slot store for an authentication token, kept in
    its own cache container under the endpoint's URL, so that page contexts
    which share no other storage can pass the token through the worker. */
module TokenRelay {
  import opened Common
  import opened JsonValues
  import opened Http
  import opened CacheStorage
  import Router

  const TOKEN_CACHE_NAME := "auth-token-cache"

  /** The outcome of `request.json()`. */
  datatype PostBody = Unparseable | Parsed(data: Json)

  /** `cache.put(TOKEN_ENDPOINT, ...)` resolves the path against the
      worker's origin. */
  function SlotKey(origin: string): string {
    origin + Router.TOKEN_ENDPOINT
  }

  /** The stored token response, if any. */
  function Slot(s: Storage, origin: string): Option<Response> {
    Lookup(s, TOKEN_CACHE_NAME, SlotKey(origin))
  }

  /** The payload check `!data || typeof data.token !== 'string'`, giving
      the token when it passes. */
  function ValidToken(data: Json): (r: Option<string>)
    ensures r.Some? <==> data.JObj? && "token" in data.fields && data.fields["token"].JStr?
    ensures r.Some? ==> data.fields["token"] == JStr(r.value)
  {
    if Falsy(data) then None
    else match Member(data, "token")
      case Some(JStr(t)) => Some(t)
      case _ => None
  }

  /** `{token: data.token}`: the token field alone. */
  function Sanitized(token: string): (j: Json)
    ensures j.JObj? && j.fields.Keys == {"token"} && j.fields["token"] == JStr(token)
  {
    JObj(map["token" := JStr(token)])
  }

  /** `new Response(JSON.stringify({token}))`: status 200, no explicit
      headers. */
  function StoredToken(token: string): Response {
    Response(200, Default, Some(TEXT_TYPE), JsonText(Sanitized(token)))
  }

  function Success(): Response {
    JsonResponse(200, JObj(map["success" := JBool(true)]))
  }

  function NullToken(): Response {
    JsonResponse(200, JObj(map["token" := JNull]))
  }

  function BadRequest(message: string): Response {
    JsonResponse(400, JObj(map["error" := JStr(message)]))
  }

  /** POST: a body that does not parse gets 400 "Invalid JSON"; a payload
      without a string `token` gets 400 "Invalid token format"; either way
      the storage is untouched. Otherwise the slot holds exactly the token,
      every other field dropped, the container's other entries stay, and the
      reply is `{success: true}`. */
  function Post(s: Storage, origin: string, body: PostBody): (r: Step)
    requires s.Valid()
    ensures r.storage.Valid()
    ensures body.Unparseable? ==> r == Step(s, Reply(BadRequest("Invalid JSON")))
    ensures body.Parsed? && ValidToken(body.data).None? ==> r == Step(s, Reply(BadRequest("Invalid token format")))
    ensures body.Parsed? && ValidToken(body.data).Some? ==>
      && r.answer == Reply(Success())
      && Slot(r.storage, origin) == Some(StoredToken(ValidToken(body.data).value))
      && r.storage.names == Open(s, TOKEN_CACHE_NAME).names
      && (forall u :: u != SlotKey(origin) ==> Lookup(r.storage, TOKEN_CACHE_NAME, u) == Lookup(s, TOKEN_CACHE_NAME, u))
      && forall n :: n in s.entries && n != TOKEN_CACHE_NAME ==> n in r.storage.entries && r.storage.entries[n] == s.entries[n]
  {
    match body
    case Unparseable => Step(s, Reply(BadRequest("Invalid JSON")))
    case Parsed(data) =>
      match ValidToken(data)
      case None => Step(s, Reply(BadRequest("Invalid token format")))
      case Some(token) =>
        Step(Put(Open(s, TOKEN_CACHE_NAME), TOKEN_CACHE_NAME, SlotKey(origin), StoredToken(token)), Reply(Success()))
  }

  /** GET: the stored response when there is one, otherwise `{token: null}`.
      Opening the container creates it if absent; nothing else changes. */
  function Get(s: Storage, origin: string): (r: Step)
    requires s.Valid()
    ensures r.storage == Open(s, TOKEN_CACHE_NAME)
    ensures Slot(r.storage, origin) == Slot(s, origin)
    ensures r.answer == Reply(if Slot(s, origin).Some? then Slot(s, origin).value else NullToken())
  {
    var withSlot := Open(s, TOKEN_CACHE_NAME);
    match Lookup(withSlot, TOKEN_CACHE_NAME, SlotKey(origin))
    case Some(stored) => Step(withSlot, Reply(stored))
    case None => Step(withSlot, Reply(NullToken()))
  }

  /** DELETE: the slot is emptied, whether or not it held anything, and the
      reply is `{success: true}`. The container is opened, so it exists
      afterwards, and its other entries stay. */
  function Delete(s: Storage, origin: string): (r: Step)
    requires s.Valid()
    ensures r.storage.Valid()
    ensures r.answer == Reply(Success())
    ensures Slot(r.storage, origin) == None
    ensures TOKEN_CACHE_NAME in r.storage.entries && r.storage.names == Open(s, TOKEN_CACHE_NAME).names
    ensures forall u :: u != SlotKey(origin) ==> Lookup(r.storage, TOKEN_CACHE_NAME, u) == Lookup(s, TOKEN_CACHE_NAME, u)
    ensures forall n :: n in s.entries && n != TOKEN_CACHE_NAME ==> n in r.storage.entries && r.storage.entries[n] == s.entries[n]
  {
    Step(DeleteEntry(Open(s, TOKEN_CACHE_NAME), TOKEN_CACHE_NAME, SlotKey(origin)), Reply(Success()))
  }

  /** Extra fields never reach the store: two payloads with the same token
      store the same response. */
  lemma PostDropsExtraFields(s: Storage, origin: string, a: Json, b: Json)
    requires s.Valid()
    requires a.JObj? && b.JObj? && "token" in a.fields && "token" in b.fields
    requires a.fields["token"] == b.fields["token"] && a.fields["token"].JStr?
    ensures Post(s, origin, Parsed(a)) == Post(s, origin, Parsed(b))
  {
  }

  /** A POST of a valid payload is read back by a later GET as `{token}`. */
  lemma PostThenGet(s: Storage, origin: string, data: Json)
    requires s.Valid() && ValidToken(data).Some?
    ensures Get(Post(s, origin, Parsed(data)).storage, origin).answer == Reply(StoredToken(ValidToken(data).value))
  {
  }

  /** A rejected POST leaves the slot as it was: on an empty slot a later
      GET still answers `{token: null}`. */
  lemma RejectedPostKeepsSlot(s: Storage, origin: string, body: PostBody)
    requires s.Valid()
    requires body.Unparseable? || ValidToken(body.data).None?
    ensures Post(s, origin, body).storage == s
    ensures Post(s, origin, body).answer.Reply? && Post(s, origin, body).answer.response.status == 400
    ensures Slot(s, origin) == None ==> Get(Post(s, origin, body).storage, origin).answer == Reply(NullToken())
  {
  }

  /** DELETE then GET answers `{token: null}`, and a second DELETE changes
      nothing more. */
  lemma DeleteThenGetAndIdempotent(s: Storage, origin: string)
    requires s.Valid()
    ensures Get(Delete(s, origin).storage, origin).answer == Reply(NullToken())
    ensures Delete(Delete(s, origin).storage, origin) == Delete(s, origin)
  {
    var d := Delete(s, origin).storage;
    assert Open(d, TOKEN_CACHE_NAME) == d;
    var slot := d.entries[TOKEN_CACHE_NAME];
    assert slot - {SlotKey(origin)} == slot;
    assert d.entries[TOKEN_CACHE_NAME := slot] == d.entries;
  }
}

=== FILE: worker.dfy ===
/** The service worker: its event handlers over one session's state (cache
    storage and the activation gate's globals). */
module ServiceWorker {
  import opened Common
  import opened JsonValues
  import opened Http
  import opened CacheStorage
  import opened Router
  import opened Strategies
  import TokenRelay
  import Lifecycle
  import ActivationGate

  /** The fetch handler's effect on storage and its answer, branch by
      branch of the classification chain. */
  function FetchStep(s: Storage, origin: string, req: Request, body: TokenRelay.PostBody, net: NetOutcome): (r: Step)
    requires s.Valid()
    ensures r.storage.Valid()
    ensures IsDocument(req) ==> r == NetworkFirst(s, req, net, true)
    ensures !IsDocument(req) && IsTokenRequest(req) && req.httpMethod == "POST" ==> r == TokenRelay.Post(s, origin, body)
    ensures !IsDocument(req) && IsTokenRequest(req) && req.httpMethod == "GET" ==> r == TokenRelay.Get(s, origin)
    ensures !IsDocument(req) && IsTokenRequest(req) && req.httpMethod == "DELETE" ==> r == TokenRelay.Delete(s, origin)
    ensures Classify(req) == Bypass ==> r == Step(s, Fallthrough)
    ensures Classify(req) == Root ==> r == NetworkFirst(s, req, net, false)
    ensures Classify(req) == WorkerScript ==> r == NetworkOnly(s, net)
    ensures Classify(req) == Asset ==> r == CacheFirst(s, req, net)
    ensures Classify(req) == Dynamic ==> r == StaleWhileRevalidate(s, req, net)
  {
    match Classify(req)
    case Document => NetworkFirst(s, req, net, true)
    case TokenPost => TokenRelay.Post(s, origin, body)
    case TokenGet => TokenRelay.Get(s, origin)
    case TokenDelete => TokenRelay.Delete(s, origin)
    case Bypass => Step(s, Fallthrough)
    case Root => NetworkFirst(s, req, net, false)
    case WorkerScript => NetworkOnly(s, net)
    case Asset => CacheFirst(s, req, net)
    case Dynamic => StaleWhileRevalidate(s, req, net)
  }

  /** The message handler's test: a truthy `data` that is the string
      `'SKIP_WAITING'` or an object whose `type` is that string. `None` is
      `undefined`. */
  predicate IsSkipWaiting(data: Option<Json>)
    ensures IsSkipWaiting(data) <==>
      || data == Some(JStr("SKIP_WAITING"))
      || (data.Some? && data.value.JObj? && "type" in data.value.fields
          && data.value.fields["type"] == JStr("SKIP_WAITING"))
  {
    && data.Some?
    && !Falsy(data.value)
    && (data.value == JStr("SKIP_WAITING")
        || (IsObject(data.value) && Member(data.value, "type") == Some(JStr("SKIP_WAITING"))))
  }

  /** Requests passed through are neither read from nor written to storage:
      the answer is `Fallthrough` whatever the storage holds. */
  lemma BypassTouchesNoCache(s1: Storage, s2: Storage, origin: string, req: Request,
                              body: TokenRelay.PostBody, net: NetOutcome)
    requires s1.Valid() && s2.Valid() && Classify(req) == Bypass
    ensures FetchStep(s1, origin, req, body, net) == Step(s1, Fallthrough)
    ensures FetchStep(s1, origin, req, body, net).answer == FetchStep(s2, origin, req, body, net).answer
  {
  }

  /** A document request that reaches the network is answered with the
      network's response, and a GET is stored in `CACHE_NAME` whatever its
      status (206 aside, which the Cache API refuses); when the network
      fails the answer is the bare cache match, possibly nothing. */
  lemma DocumentNetworkFirst(s: Storage, origin: string, req: Request, body: TokenRelay.PostBody, net: NetOutcome)
    requires s.Valid() && IsDocument(req)
    ensures net.Ok? ==> FetchStep(s, origin, req, body, net).answer == Reply(net.response)
    ensures net.Ok? && req.httpMethod == "GET" && net.response.status != 206 ==>
      Lookup(FetchStep(s, origin, req, body, net).storage, CACHE_NAME, req.url) == Some(net.response)
    ensures net.Fail? ==>
      FetchStep(s, origin, req, body, net) == Step(s, if Match(s, req).Some? then Reply(Match(s, req).value) else NoEntry)
  {
  }

  /** Only the token endpoint's own routes, and activate, touch the token
      slot: every other request leaves it as it was. */
  lemma TokenSlotOnlyChangedByTokenRoutes(s: Storage, origin: string, req: Request,
                                          body: TokenRelay.PostBody, net: NetOutcome)
    requires s.Valid()
    requires Classify(req) !in {TokenPost, TokenDelete}
    ensures TokenRelay.Slot(FetchStep(s, origin, req, body, net).storage, origin) == TokenRelay.Slot(s, origin)
  {
    Lifecycle.TokenContainerIsNotCurrent();
  }

  /** A cache-first hit answers with the stored entry, issues no fetch (the
      answer is the same whatever the network does) and writes nothing. */
  lemma AssetHitNeedsNoNetwork(s: Storage, origin: string, req: Request, body: TokenRelay.PostBody,
                                net1: NetOutcome, net2: NetOutcome)
    requires s.Valid() && Classify(req) == Asset
    ensures Match(s, req).Some? ==> FetchStep(s, origin, req, body, net1) == Step(s, Reply(Match(s, req).value))
    ensures Match(s, req).Some? ==> FetchStep(s, origin, req, body, net1) == FetchStep(s, origin, req, body, net2)
  {
  }

  /** The worker script is always fetched from the network, never from any
      cache, and nothing is stored. */
  lemma WorkerScriptNeverFromCache(s: Storage, origin: string, req: Request, body: TokenRelay.PostBody, net: NetOutcome)
    requires s.Valid() && Classify(req) == WorkerScript
    ensures FetchStep(s, origin, req, body, net).storage == s
    ensures FetchStep(s, origin, req, body, net).answer == if net.Ok? then Reply(net.response) else NetworkError
  {
  }

  /** One worker instance: the cache storage it shares with its successors
      and predecessors, and the activation gate's globals. */
  class WorkerSession {
    /** The origin relative URLs such as the token endpoint resolve to. */
    const origin: string
    var storage: Storage
    var lastNavAt: int
    var deadline: Option<int>
    var timer: Option<int>
    /** `self.skipWaiting()` has been called. */
    var activated: bool
    /** `self.clients.claim()` has been called. */
    var claimed: bool

    ghost predicate Valid()
      reads this
    {
      storage.Valid()
    }

    function Gate(): ActivationGate.Gate
      reads this
    {
      ActivationGate.Gate(lastNavAt, deadline, timer, activated)
    }

    /** The script starts with `LAST_NAV_AT = Date.now()` and no deadline
        or timer, over whatever cache storage the origin already has. */
    constructor (origin: string, existing: Storage, now: int)
      requires existing.Valid()
      ensures Valid()
      ensures this.origin == origin && storage == existing
      ensures Gate() == ActivationGate.Initial(now) && !claimed
    {
      this.origin := origin;
      storage := existing;
      lastNavAt := now;
      deadline := None;
      timer := None;
      activated := false;
      claimed := false;
    }

    /** The install handler; `ok` is false when the install fails. */
    method Install(root: NetOutcome, index: NetOutcome) returns (ok: bool)
      requires Valid()
      modifies this
      ensures Valid()
      ensures Lifecycle.Install(old(storage), origin, root, index) == Lifecycle.Installed(storage, ok)
      ensures Gate() == old(Gate()) && claimed == old(claimed)
    {
      storage := Open(storage, CACHE_NAME);
      ok := Lifecycle.AddAllAccepts(root) && Lifecycle.AddAllAccepts(index);
      if ok {
        storage := Put(storage, CACHE_NAME, origin + "/", root.response);
        storage := Put(storage, CACHE_NAME, origin + "/index.html", index.response);
      }
    }

    /** The activate handler: delete every container not named
        `CACHE_NAME`, one name of `caches.keys()` at a time, then claim the
        clients. */
    method Activate()
      requires Valid()
      modifies this
      ensures Valid()
      ensures storage == Lifecycle.Reclaim(old(storage), old(storage).names)
      ensures storage.entries.Keys <= {CACHE_NAME}
      ensures CACHE_NAME in old(storage).entries ==>
        CACHE_NAME in storage.entries && storage.entries[CACHE_NAME] == old(storage).entries[CACHE_NAME]
      ensures claimed && Gate() == old(Gate())
    {
      ghost var initial := storage;
      var cacheNames := storage.names;
      var i := 0;
      while i < |cacheNames|
        invariant 0 <= i <= |cacheNames|
        invariant storage == Lifecycle.Reclaim(initial, cacheNames[..i])
        invariant Gate() == old(Gate())
      {
        var name := cacheNames[i];
        Lifecycle.ReclaimStep(initial, cacheNames, i);
        if name != CACHE_NAME {
          storage := Delete(storage, name);
        }
        i := i + 1;
      }
      assert cacheNames[..i] == cacheNames;
      Lifecycle.ActivateLeavesOnlyCurrent(initial);
      claimed := true;
    }

    /** `attemptActivate()` */
    method AttemptActivate(now: int)
      modifies this
      ensures Gate() == ActivationGate.Attempt(old(Gate()), now)
      ensures storage == old(storage) && claimed == old(claimed)
    {
      if ActivationGate.CanActivate(Gate(), now) {
        activated := true;
        return;
      }
      if deadline.None? || deadline.value == 0 {
        deadline := Some(now + ActivationGate.HARD_DEADLINE_MS);
      }
      if now < deadline.value {
        timer := Some(now + ActivationGate.RETRY_MS);
      } else {
        activated := true;
      }
    }

    /** The retry timer fires at or after its due time. */
    method TimerFires(now: int)
      requires timer.Some? && timer.value <= now
      modifies this
      ensures Gate() == ActivationGate.TimerFired(old(Gate()), now)
      ensures storage == old(storage) && claimed == old(claimed)
    {
      timer := None;
      AttemptActivate(now);
    }

    /** The message handler. */
    method OnMessage(data: Option<Json>, now: int)
      modifies this
      ensures Gate() == if IsSkipWaiting(data) then ActivationGate.Attempt(old(Gate()), now) else old(Gate())
      ensures storage == old(storage) && claimed == old(claimed)
    {
      if data.None? || Falsy(data.value) {
        return;
      }
      if data.value == JStr("SKIP_WAITING") || (IsObject(data.value) && Member(data.value, "type") == Some(JStr("SKIP_WAITING"))) {
        AttemptActivate(now);
      }
    }

    /** The fetch handler: a document request records the navigation time;
        the storage and the answer are those of the request's route. */
    method Fetch(req: Request, body: TokenRelay.PostBody, net: NetOutcome, now: int) returns (answer: Answer)
      requires Valid()
      modifies this
      ensures Valid()
      ensures Step(storage, answer) == FetchStep(old(storage), origin, req, body, net)
      ensures Gate() == if IsDocument(req) then ActivationGate.Navigation(old(Gate()), now) else old(Gate())
      ensures claimed == old(claimed)
    {
      var step: Step;
      match Classify(req) {
      case Document =>
        lastNavAt := now;
        step := NetworkFirst(storage, req, net, true);
      case TokenPost =>
        step := TokenRelay.Post(storage, origin, body);
      case TokenGet =>
        step := TokenRelay.Get(storage, origin);
      case TokenDelete =>
        step := TokenRelay.Delete(storage, origin);
      case Bypass =>
        step := Step(storage, Fallthrough);
      case Root =>
        step := NetworkFirst(storage, req, net, false);
      case WorkerScript =>
        step := NetworkOnly(storage, net);
      case Asset =>
        step := CacheFirst(storage, req, net);
      case Dynamic =>
        step := StaleWhileRevalidate(storage, req, net);
      }
      storage := step.storage;
      answer := step.answer;
    }
  }
}
